=== FILE: README.md ===
# FluentStore package SDK — a Dafny model

This project models the deterministic core of the FluentStore package SDK. FluentStore is a
Windows store front-end that aggregates several package sources. The model covers:

- **Installer classifier** (`PackagedInstallerHelper.GetInstallerType`). It reads the 4-byte
  big-endian magic number of a downloaded file: 0x504B0304 is the ZIP local file header
  signature of section 4.3.7 of PKWARE's APPNOTE.TXT, and 0x45584248 is taken to mean an
  encrypted bundle. For a ZIP file it reads the `Default` entries of the OPC content-types
  part (ECMA-376 Part 2, clause 10.1.2) and sets the Msix, AppX and Bundle flags.
- **Compatibility gates.** The Microsoft Store package checks the running platform against
  its allow-list. The packaged-installer helper checks the CPU architecture against the
  manifest's list.
- **Download, install and launch lifecycle**, as the list of messenger messages sent, the
  package afterwards and the value returned. Every external call (catalogue query, HTTP
  download, deployment, launcher) becomes a parameter holding its outcome.
- **Package record rules** of `PackageBase`: the status enum and its default, the `Has*`
  predicates, the `ShortTitle` fallback, equality by URN, `CanBeInstalled` and the
  `DownloadItem` setter.
- **Microsoft Store record**: both `Update` overloads, the lazily cached URN, and the icon,
  hero image and screenshot picks.
- **Identifier strings**: the Chocolatey URN split, its package-page URL matcher and URL
  builder, and the AdGuard package-full-name segment getters.

C# `null` is `Nullable<T>` (`Null | Some(value)`). An exception is the `Err` arm of
`Result<T, Exception>`, with the .NET exception type as its value. `System.Version` is
`Versions.Version`: two to four components, compared lexicographically with an absent
component reading as -1. Files, one module each:

- `prelude.dfy`: `Nullable`, `Result`, `Exception`.
- `strings.dfy`: `IndexOf`, `LastIndexOf`, `Split`/`Join`, decimal text.
- `numbers.dfy`: `int.Parse` with `NumberStyles.Integer`.
- `versions.dfy`: `System.Version`.
- `windows.dfy`: the Windows enums.
- `messages.dfy`: the messenger messages.
- One module per core source file: `package_base.dfy`, `packaged_installer_helper.dfy`,
  `microsoft_store_package.dfy`, `microsoft_store_images.dfy`, `chocolatey_handler.dfy`,
  `adguard_package.dfy`.

Four behaviours of the code that are easy to miss:

- A stream shorter than four bytes is zero-padded by the unchecked `Stream.Read`, so it
  classifies as `Unknown`, not as a malformed installer.
- `PackageStatus` is not monotonic. A second download moves `Downloaded` back to
  `DownloadReady`.
- `GetPackageFromUrl` joins the version with '.', so it cannot resolve a package (see
  Findings).
- `GetScreenshots` inserts each screenshot at its index in the list built so far, so
  screenshots listed out of order do not always come out in position order (see Findings).

## Model

| member | source | states |
|---|---|---|
| PackageBase.NewRecordDefaults | FluentStore.SDK/PackageBase.cs:65-70 | A fresh record has status Unknown, no price (the -1 default), no display price, no website, no short title and no images. Unknown (0xFFFF) is numerically above every other status, and no two statuses share a value. |
| PackageBase.ShortTitleFallback | FluentStore.SDK/PackageBase.cs:152-157 | Setting ShortTitle leaves Title unchanged. A non-null setting reads back as itself and a null one falls back to Title. ShortTitle is null iff both are null. |
| PackageBase.ShortTitle | FluentStore.SDK/PackageBase.cs:153-155 | The getter returns the stored short title when there is one, else the title. It is null iff both are null. |
| PackageBase.AvailabilityFlags | FluentStore.SDK/PackageBase.cs:142-165 | HasPrice iff the price is not negative, so the -1 default means no price. HasDisplayPrice iff the display price is not null. HasWebsite iff the website is not null. Changing the price leaves the other two flags unchanged. |
| PackageBase.Equals | FluentStore.SDK/PackageBase.cs:51 | For a non-null other package, equality throws NullReferenceException iff the receiver has no URN. Otherwise it is true iff the other package's URN is present and equal. |
| PackageBase.EqualsByUrnOnly | FluentStore.SDK/PackageBase.cs:51 | Between packages with URNs, equality is symmetric and holds iff the URNs are equal. Changing title, status or images changes nothing. |
| PackageBase.CanBeInstalledAsWritten | FluentStore.SDK/PackageBase.cs:39 | True iff the returned task reference itself is null, whatever reason the task carries. |
| PackageBase.CanBeInstalledIgnoresReason | FluentStore.SDK/PackageBase.cs:34-39 | For the base implementation (a null task) the as-written check is true. For any real task, even one that completes with a null reason, it is false. |
| PackageBase.CanBeInstalled | FluentStore.SDK/PackageBase.cs:36-39 | Corrected: true iff the awaited reason is null. For a real task, true iff the task's reason is null. |
| PackageBase.SetDownloadItem | FluentStore.SDK/PackageBase.cs:72-81 | The stored item is the new value. Every other field is what `OnDownloaded`, called with the new value before the store, made of the record. |
| PackageBase.SetDownloadItemWithBaseHook | FluentStore.SDK/PackageBase.cs:72-81 | With the base (empty) hook only the item changes. A hook that reads the item still sees the old one, because it runs before the store. |
| PackagedInstallerHelper.Prefix | FluentStore.SDK/Helpers/PackagedInstallerHelper.cs:153-154 | The 4-byte buffer holds the stream's first bytes, zero where the stream is shorter (the read count is not checked). |
| PackagedInstallerHelper.Magic | FluentStore.SDK/Helpers/PackagedInstallerHelper.cs:155 | The magic number is an unsigned 32-bit value. |
| PackagedInstallerHelper.MagicIsBigEndian | FluentStore.SDK/Helpers/PackagedInstallerHelper.cs:155 | The magic number is the 32-bit big-endian value of buffer bytes 0..3: its big-endian bytes are those bytes. |
| PackagedInstallerHelper.ArchiveType | FluentStore.SDK/Helpers/PackagedInstallerHelper.cs:164-189 | For a ZIP archive: Msix iff a Default has extension "msix"; AppX iff none has "msix" but one has "appx"; never both. Bundle iff a Default has the bundle-manifest content type. AppXBundle iff no flag was set. Never Unknown or EAppXBundle. |
| PackagedInstallerHelper.ScanContentTypes | FluentStore.SDK/Helpers/PackagedInstallerHelper.cs:166-189 | The one-pass scan of the Default entries computes the same type as the three `Any` queries. |
| PackagedInstallerHelper.GetInstallerType | FluentStore.SDK/Helpers/PackagedInstallerHelper.cs:147-206 | ZIP magic with a content-types part gives the archive type, and without one a NullReferenceException. The encrypted magic gives exactly EAppXBundle without reading the archive. Any other magic gives Unknown. |
| PackagedInstallerHelper.ShortStreamIsUnknown | FluentStore.SDK/Helpers/PackagedInstallerHelper.cs:149-155 | A stream shorter than four bytes always classifies as Unknown. |
| PackagedInstallerHelper.UnknownIffNoSignature | FluentStore.SDK/Helpers/PackagedInstallerHelper.cs:149-202 | With the content-types part present, the result is Unknown iff the magic is neither signature. |
| PackagedInstallerHelper.GetCannotBeInstalledReason | FluentStore.SDK/Helpers/PackagedInstallerHelper.cs:57-75 | An unidentified platform gives the fixed message. Otherwise the reason is null iff the current architecture is in the manifest list, else "Package does not support " + the architecture's name. |
| PackagedInstallerHelper.ArchitectureGateIgnoresPlatform | FluentStore.SDK/Helpers/PackagedInstallerHelper.cs:63-73 | Once the platform is known, which platform it is does not matter (the allow-list check is commented out). Adding the current architecture admits the package. |
| PackagedInstallerHelper.IsInstalled | FluentStore.SDK/Helpers/PackagedInstallerHelper.cs:79-98 | Installed iff the query status is Available or NotSupported. AppNotInstalled, AppUnavailable and Unknown give false. |
| PackagedInstallerHelper.Install | FluentStore.SDK/Helpers/PackagedInstallerHelper.cs:101-131 | InstallStarted comes first and no progress message is ever sent. A null download item throws after InstallStarted. Otherwise, for a path that `new Uri` accepts, exactly one more message follows. True iff registered; false iff the trace is InstallStarted, InstallFailed(error text). The package is unchanged. |
| PackagedInstallerHelper.InstallHasOneTerminal | FluentStore.SDK/Helpers/PackagedInstallerHelper.cs:109-128 | With a download item whose path `new Uri` accepts, the install trace holds exactly one terminal install message. |
| PackagedInstallerHelper.FirstOfFamily | FluentStore.SDK/Helpers/PackagedInstallerHelper.cs:137 | Null iff no installed package has the family name. Otherwise it is the first package in the list with that name. |
| PackagedInstallerHelper.Launch | FluentStore.SDK/Helpers/PackagedInstallerHelper.cs:134-145 | True iff the first installed package of the family has an app and launching its first app succeeds. With no package of the family it is false. |
| MicrosoftStorePackage.Update | FluentStore.SDK/PackageTypes/MicrosoftStorePackage.cs:26-68 | Throws iff the family-name list is present but empty. Otherwise the package id is the first family name, or the store id when there is no list. Title, publisher id, developer name and publisher display name (both the publisher name), description, version, price, display price, short title, website, notes, features, categories, privacy URL, platforms, permissions and allowed platforms are the listing's. Images and support URLs are appended. URN, status, item, moniker, URI and installer file are untouched. |
| MicrosoftStorePackage.UpdateTwiceDuplicates | FluentStore.SDK/PackageTypes/MicrosoftStorePackage.cs:57-67 | Updating twice from the same listing lists its images and support URLs twice. |
| MicrosoftStorePackage.GetUrn | FluentStore.SDK/PackageTypes/MicrosoftStorePackage.cs:79-89 | A cached URN is returned unchanged. Otherwise "urn:msstore:" + StoreId is built and cached. The package afterwards always holds the returned URN. |
| MicrosoftStorePackage.UrnIsCachedOnce | FluentStore.SDK/PackageTypes/MicrosoftStorePackage.cs:79-89 | A second read returns the same URN and changes nothing. A URN once read survives an Update that changes the store id. |
| MicrosoftStorePackage.StoreEquals | FluentStore.SDK/PackageBase.cs:51 | Between store packages, equality reads both URNs through the lazy getter, the receiver's first, and never throws. It is true iff the two URNs read agree, and afterwards the record-level equality of the two cached records gives the same answer. When neither URN was read before, it is true iff the store ids agree. |
| MicrosoftStorePackage.FreshPackagesCompareByProductId | FluentStore.SDK/PackageBase.cs:51 | Two packages freshly built from listings compare equal iff their product ids agree, where reading the stored URN field instead would throw NullReferenceException. |
| MicrosoftStorePackage.GetCannotBeInstalledReason | FluentStore.SDK/PackageTypes/MicrosoftStorePackage.cs:92-108 | Always a real task. An unknown platform gives the fixed message. Otherwise the reason is null iff there is no allow-list or it contains the platform, else Title + " does not support " + the platform. |
| MicrosoftStorePackage.PlatformGateLists | FluentStore.SDK/PackageTypes/MicrosoftStorePackage.cs:100-107 | No allow-list admits every known platform. An empty one rejects every platform with a message starting with the title. |
| MicrosoftStorePackage.StoreCanBeInstalled | FluentStore.SDK/PackageBase.cs:39 | As written, CanBeInstalled is false for every store package. Corrected, it is true iff the platform is known and allowed. |
| MicrosoftStorePackage.UpdateFromInstance | FluentStore.SDK/PackageTypes/MicrosoftStorePackage.cs:70-77 | The version becomes the text of the instance's version, and moniker and URI the instance's. Nothing else changes. |
| MicrosoftStorePackage.UpdateFromInstanceVersionReadsBack | FluentStore.SDK/PackageTypes/MicrosoftStorePackage.cs:74 | The stored version text parses back to the instance's version. |
| MicrosoftStorePackage.Installables | FluentStore.SDK/PackageTypes/MicrosoftStorePackage.cs:169-170 | On a known platform other than Xbox the result is `WithoutRevision70` of the packages, in catalogue order: a package is kept iff its revision is not 70. Otherwise all packages are kept, in order. Nothing is added. |
| MicrosoftStorePackage.WithoutRevision70 | FluentStore.SDK/PackageTypes/MicrosoftStorePackage.cs:170 | `Where(p => p.Version.Revision != 70)`: a package is in the result iff it is listed and its revision is not 70. |
| MicrosoftStorePackage.WithoutRevision70KeepsOrder | FluentStore.SDK/PackageTypes/MicrosoftStorePackage.cs:169-170 | The revision filter keeps the catalogue's order and duplicates: filtering a concatenation is concatenating the filtered parts, and one package is kept iff its revision is not 70. |
| MicrosoftStorePackage.NewestIndex | FluentStore.SDK/PackageTypes/MicrosoftStorePackage.cs:171-177 | The pick has a version no other package's exceeds, and every package before it has a strictly smaller one. This is what the stable OrderByDescending puts first. |
| MicrosoftStorePackage.PopulatePackageUri | FluentStore.SDK/PackageTypes/MicrosoftStorePackage.cs:160-180 | False with the package unchanged iff no package remains after filtering. Otherwise the package at NewestIndex, the first of maximal version, is copied in (version text, moniker, URI) and the status becomes DownloadReady. |
| MicrosoftStorePackage.FileName | FluentStore.SDK/PackageTypes/MicrosoftStorePackage.cs:125 | The file name is the end of the path after its last '\\' or '/': it holds neither, and unless it is the whole path the character before it is one of them. A path with no separator is its own file name. |
| MicrosoftStorePackage.InstallerPath | FluentStore.SDK/PackageTypes/MicrosoftStorePackage.cs:122-123 | A given installer path is used as it is. Otherwise the path is the temporary folder, '\\' and the package moniker, and its file name is the moniker when the moniker has no separator. |
| MicrosoftStorePackage.FileNameAfterSeparator | FluentStore.SDK/PackageTypes/MicrosoftStorePackage.cs:123-125 | The file name of a folder, '\\' and a name without separators is that name. |
| MicrosoftStorePackage.Transfer | FluentStore.SDK/PackageTypes/MicrosoftStorePackage.cs:126-157 | DownloadStarted, one message per progress report, then DownloadFailed(status text) with the status unchanged iff the code is outside [200, 300). Else DownloadCompleted; the base record is the old one with status Downloaded, and the file is renamed to name + extension iff the extension is non-empty. |
| MicrosoftStorePackage.TransferTo | FluentStore.SDK/PackageTypes/MicrosoftStorePackage.cs:122-157 | The transfer into the file at the installer path sends at least one message. It reports success iff the status code is in [200, 300), and then the package status is Downloaded. |
| MicrosoftStorePackage.ProgressMessages | FluentStore.SDK/PackageTypes/MicrosoftStorePackage.cs:131-135 | One DownloadProgress message per progress report, in order, carrying bytes received and bytes to receive. |
| MicrosoftStorePackage.ProgressTraceShape | FluentStore.SDK/PackageTypes/MicrosoftStorePackage.cs:131-156 | DownloadStarted, progress messages and one terminal download message form a trace with exactly one terminal download message. Every message between the first and the last is a progress message. |
| MicrosoftStorePackage.ProgressTraceCount | FluentStore.SDK/PackageTypes/MicrosoftStorePackage.cs:131-156 | Of DownloadStarted, the progress messages and one terminal download message, exactly one message ends the download step. |
| MicrosoftStorePackage.ProgressTraceSteps | FluentStore.SDK/PackageTypes/MicrosoftStorePackage.cs:131-156 | Every message of that trace belongs to the download step, and every message strictly between the first and the last reports progress. |
| MicrosoftStorePackage.TransferHasOneTerminal | FluentStore.SDK/PackageTypes/MicrosoftStorePackage.cs:131-156 | A transfer holds exactly one terminal download message, the last one, with only progress messages after DownloadStarted. |
| MicrosoftStorePackage.DownloadPackageAsync | FluentStore.SDK/PackageTypes/MicrosoftStorePackage.cs:110-157 | The trace starts with FetchStarted. Its second message is FetchCompleted iff some package can be installed (else FetchFailed). True only when the status code is a success, and then the status is Downloaded. |
| MicrosoftStorePackage.DownloadFetchFails | FluentStore.SDK/PackageTypes/MicrosoftStorePackage.cs:112-118 | When nothing can be installed, the trace is exactly FetchStarted, FetchFailed. No download message is sent, false is returned and the package is unchanged. |
| MicrosoftStorePackage.DownloadFetchSucceeds | FluentStore.SDK/PackageTypes/MicrosoftStorePackage.cs:112-138 | Otherwise the trace starts FetchStarted, FetchCompleted, DownloadStarted and holds one terminal fetch message. |
| MicrosoftStorePackage.DownloadPhase | FluentStore.SDK/PackageTypes/MicrosoftStorePackage.cs:138-157 | After a successful fetch: one terminal download message, last. True iff the code is a success, with status Downloaded and DownloadCompleted last. Else status DownloadReady and DownloadFailed last. |
| MicrosoftStorePackage.RedownloadMovesStatusBack | FluentStore.SDK/PackageTypes/MicrosoftStorePackage.cs:143-148 | A failed re-download of a Downloaded package leaves it at DownloadReady, a lower status. |
| MicrosoftStoreImages.OfKind | FluentStore.SDK/PackageTypes/MicrosoftStorePackage.cs:185 | Every image kept is of the kind, and no more images are kept than are listed. |
| MicrosoftStoreImages.OfKindMembers | FluentStore.SDK/PackageTypes/MicrosoftStorePackage.cs:185 | The images kept are exactly the listed images of the kind. |
| MicrosoftStoreImages.OfKindSingle | FluentStore.SDK/PackageTypes/MicrosoftStorePackage.cs:185 | A single image is kept iff it is of the kind. |
| MicrosoftStoreImages.OfKindKeepsOrder | FluentStore.SDK/PackageTypes/MicrosoftStorePackage.cs:185 | `FindAll` keeps the listing order: filtering a concatenation is concatenating the filtered parts. |
| MicrosoftStoreImages.KindIndex | FluentStore.SDK/PackageTypes/MicrosoftStorePackage.cs:185 | The k-th image of the kind is listed at the index returned, and the images of the kind listed before it are exactly the first k. |
| MicrosoftStoreImages.IconKind | FluentStore.SDK/PackageTypes/MicrosoftStorePackage.cs:184-195 | Tile iff some image is a tile. Logo iff none is a tile and some is a logo. Poster iff none is a tile or a logo. |
| MicrosoftStoreImages.Widest | FluentStore.SDK/PackageTypes/MicrosoftStorePackage.cs:200 | The pick is at least as wide as every image and wider than every image before it. |
| MicrosoftStoreImages.GetAppIcon | FluentStore.SDK/PackageTypes/MicrosoftStorePackage.cs:182-201 | Fails with ArgumentException iff there is no tile, logo or poster. Otherwise it is a listed image of the first non-empty kind among tile, logo, poster. It is at least as wide as every image of that kind, and every image of the kind listed before it is strictly narrower. |
| MicrosoftStoreImages.WidestOfKind | FluentStore.SDK/PackageTypes/MicrosoftStorePackage.cs:200 | The widest image of a kind is listed and at least as wide as every listed image of the kind. |
| MicrosoftStoreImages.FirstWidestOfKind | FluentStore.SDK/PackageTypes/MicrosoftStorePackage.cs:200 | Every image of the kind listed before the widest one is strictly narrower, which is what the stable sort puts first. |
| MicrosoftStoreImages.HeroImageAsWritten | FluentStore.SDK/PackageTypes/MicrosoftStorePackage.cs:203-214 | As written: the last hero image wider than 0, null iff there is none. |
| MicrosoftStoreImages.HeroImageAsWrittenPicksNarrower | FluentStore.SDK/PackageTypes/MicrosoftStorePackage.cs:206-210 | A 1920-wide hero listed before a 640-wide one yields the 640-wide one. |
| MicrosoftStoreImages.GetHeroImage | FluentStore.SDK/PackageTypes/MicrosoftStorePackage.cs:203-214 | Corrected: a hero image at least as wide as every hero and wider than every hero before it. Null iff no hero is wider than 0. |
| MicrosoftStoreImages.FamilyScreenshots | FluentStore.SDK/PackageTypes/MicrosoftStorePackage.cs:219-220 | Kept iff a screenshot whose position is non-empty and starts with the device family. |
| MicrosoftStoreImages.FamilyScreenshotsKeepOrder | FluentStore.SDK/PackageTypes/MicrosoftStorePackage.cs:219-220 | The filter keeps the listing order: filtering a concatenation is concatenating the filtered parts, and one image is kept iff it is a screenshot for the family. |
| MicrosoftStoreImages.PositionIndex | FluentStore.SDK/PackageTypes/MicrosoftStorePackage.cs:226-227 | A null position throws NullReferenceException, and one shorter than the family name plus one character throws ArgumentOutOfRangeException. Otherwise the index is `int.Parse` of the text after the family name and one character, so any failure is its FormatException or OverflowException, and a result fits in 32 bits. |
| MicrosoftStoreImages.PositionIndexReadsBack | FluentStore.SDK/PackageTypes/MicrosoftStorePackage.cs:226-227 | The position family, one character, and the text of a 32-bit integer asks for that integer. |
| MicrosoftStoreImages.Place | FluentStore.SDK/PackageTypes/MicrosoftStorePackage.cs:228-231 | Fails iff the index is negative. An index at or past the end appends the screenshot. An index inside the list inserts it there: the list before the index, the screenshot, then the rest. |
| MicrosoftStoreImages.Arrange | FluentStore.SDK/PackageTypes/MicrosoftStorePackage.cs:223-232 | The loop fails iff some remaining screenshot's index fails to parse or is negative. A success outputs a permutation of the placed list plus the remaining screenshots; with nothing left it is the placed list. |
| MicrosoftStoreImages.ArrangeStep | FluentStore.SDK/PackageTypes/MicrosoftStorePackage.cs:223-232 | Each turn places the next screenshot by `Place` at its parsed index (appended at or past the end, inserted otherwise) and goes on with the rest. |
| MicrosoftStoreImages.PlaceFront | FluentStore.SDK/PackageTypes/MicrosoftStorePackage.cs:228-231 | Index 0 puts the screenshot in front of the list. |
| MicrosoftStoreImages.GetScreenshots | FluentStore.SDK/PackageTypes/MicrosoftStorePackage.cs:216-235 | A device family shorter than "Windows." throws. Otherwise it throws iff some screenshot of the family has an index that fails to parse or is negative. A success is a permutation of the family's screenshots, all of them listed screenshots. Where each lands is stated by `ArrangeStep` and shown by `ScreenshotsSwapped` and `ScreenshotsOutOfPositionOrder`. |
| MicrosoftStoreImages.ArrangeAppendsInOrder | FluentStore.SDK/PackageTypes/MicrosoftStorePackage.cs:226-229 | Screenshots whose indices never fall inside the list so far are appended in listing order. |
| MicrosoftStoreImages.ScreenshotsInListingOrder | FluentStore.SDK/PackageTypes/MicrosoftStorePackage.cs:216-235 | Positions family/0, family/1, … in listing order give exactly the family's screenshots in listing order. |
| MicrosoftStoreImages.ListedAt | FluentStore.SDK/PackageTypes/MicrosoftStorePackage.cs:219-227 | A screenshot at position family + "/" + a digit is kept for the family and asks for that digit. |
| MicrosoftStoreImages.AllFamilyScreenshots | FluentStore.SDK/PackageTypes/MicrosoftStorePackage.cs:219-220 | The filter keeps every image when all are screenshots for the family. |
| MicrosoftStoreImages.ListedScreenshots | FluentStore.SDK/PackageTypes/MicrosoftStorePackage.cs:216-235 | When all images are screenshots for the family, the method runs the loop on all of them from an empty list. |
| MicrosoftStoreImages.ScreenshotsSwapped | FluentStore.SDK/PackageTypes/MicrosoftStorePackage.cs:216-235 | Screenshots listed at positions 1 then 0 come out at positions 0, 1: the second is inserted in front. |
| MicrosoftStoreImages.ArrangeOneZero | FluentStore.SDK/PackageTypes/MicrosoftStorePackage.cs:223-232 | The loop on indices 1, 0 appends the first and inserts the second in front. |
| MicrosoftStoreImages.ScreenshotsOutOfPositionOrder | FluentStore.SDK/PackageTypes/MicrosoftStorePackage.cs:222-234 | As written: screenshots listed at positions 2, 1, 0 come out at positions 0, 2, 1, which is not in position order. |
| MicrosoftStoreImages.ArrangeTwoOneZero | FluentStore.SDK/PackageTypes/MicrosoftStorePackage.cs:223-232 | The loop on indices 2, 1, 0 gives the third, the first, then the second. |
| MicrosoftStoreImages.ArrangeAppendsTwo | FluentStore.SDK/PackageTypes/MicrosoftStorePackage.cs:228-229 | Indices 2 then 1 on an empty list are both appended, since each is at least the list's length. |
| MicrosoftStoreImages.InsertByPosition | FluentStore.SDK/PackageTypes/MicrosoftStorePackage.cs:222-231 | Corrected placement: into a list in position order, the screenshot is inserted so the list stays in position order and holds one more copy of it. |
| MicrosoftStoreImages.ArrangeByPosition | FluentStore.SDK/PackageTypes/MicrosoftStorePackage.cs:223-232 | Corrected loop: a success is in position order and a permutation of the placed and remaining screenshots. It fails iff some remaining index fails to parse or is negative, as the loop as written does. |
| MicrosoftStoreImages.GetScreenshotsByPosition | FluentStore.SDK/PackageTypes/MicrosoftStorePackage.cs:216-235 | Corrected method: fails exactly when the method as written fails. Otherwise it returns the family's screenshots, as a permutation, in position order. |
| MicrosoftStoreImages.ScreenshotsByPositionSorted | FluentStore.SDK/PackageTypes/MicrosoftStorePackage.cs:216-235 | Corrected: screenshots listed at positions 2, 1, 0 come out at positions 0, 1, 2. |
| MicrosoftStoreImages.ArrangeByPositionTwoOneZero | FluentStore.SDK/PackageTypes/MicrosoftStorePackage.cs:223-232 | The corrected loop on indices 2, 1, 0 puts each one in front. |
| Numbers.ParseInt32 | FluentStore.SDK/PackageTypes/MicrosoftStorePackage.cs:227 | After trimming white space and dropping one sign, anything but a non-empty run of ASCII digits is a FormatException. Digits give their value, negated after '-'. A value outside the 32-bit range is an OverflowException, so every result fits in 32 bits. |
| Numbers.ParseInt32IntToString | FluentStore.SDK/PackageTypes/MicrosoftStorePackage.cs:227 | The text of every 32-bit integer, with white space around it, parses back to that integer. |
| Numbers.TrimDigits | FluentStore.SDK/PackageTypes/MicrosoftStorePackage.cs:227 | A run of digits has no white space to trim. |
| Versions.ParseToString | FluentStore.SDK/PackageTypes/MicrosoftStorePackage.cs:74 | Parsing the text of a version gives the version back. |
| Versions.ToStringComponents | FluentStore.SDK/PackageTypes/MicrosoftStorePackage.cs:74 | `Version.ToString()` is the defined components' decimal texts joined by '.': the text splits at '.' into exactly those texts, in order. |
| Versions.LessIsLexicographic | FluentStore.SDK/PackageTypes/MicrosoftStorePackage.cs:171 | `Version.CompareTo`, which orders the packages: one version is older iff at some component it is smaller and all earlier components agree, an absent component reading as -1. |
| Versions.LessIsStrictTotalOrder | FluentStore.SDK/PackageTypes/MicrosoftStorePackage.cs:171 | On valid versions the comparison is irreflexive, transitive and total, so the newest package is well defined. |
| Versions.Parse | AdGuard/Models/Package.cs:46 | Null iff the text does not split at '.' into two to four components that each parse. A result has one component per text, each the component's parse and at most Int32.MaxValue. Plain digit texts give their decimal values. |
| Versions.ParseComponent | FluentStore.SDK/Handlers/ChocolateyHandler.cs:41 | A component is read by `int.Parse` and rejected when negative: a result is at most Int32.MaxValue, and a plain digit text within range gives its value. |
| Versions.ParseComponentMeaning | FluentStore.SDK/Handlers/ChocolateyHandler.cs:41 | A component parses iff, after trimming white space and one sign, it is a digit run within range and not a negative number. Its value is that of the digits. |
| Versions.ParseTexts | FluentStore.SDK/Handlers/ChocolateyHandler.cs:41 | Null iff the number of texts is not two to four or some text does not parse as a component. |
| Versions.SignedPaddedComponent | FluentStore.SDK/Handlers/ChocolateyHandler.cs:41 | A number with white space around it and an optional sign parses to the number, unless the sign is '-' and the number is not 0. |
| Versions.ParseTwo | FluentStore.SDK/Handlers/ChocolateyHandler.cs:41 | Two dot-joined texts without '.' parse iff both components parse. |
| Versions.PlusSignedVersion | FluentStore.SDK/Handlers/ChocolateyHandler.cs:41 | "+1.2" parses as 1.2. |
| Versions.PaddedVersion | FluentStore.SDK/Handlers/ChocolateyHandler.cs:41 | " 1.2 " parses as 1.2. |
| Versions.MinusZeroVersion | FluentStore.SDK/Handlers/ChocolateyHandler.cs:41 | "-0.1" parses as 0.1. |
| Versions.NegativeComponentRejected | FluentStore.SDK/Handlers/ChocolateyHandler.cs:41 | "1.-2" does not parse. |
| ChocolateyHandler.GetPackage | FluentStore.SDK/Handlers/ChocolateyHandler.cs:32-44 | Namespace other than "choco": ArgumentException. No ':' past the first character: NotSupportedException. Otherwise the text is cut at its last ':'. |
| ChocolateyHandler.RequestAt | FluentStore.SDK/Handlers/ChocolateyHandler.cs:41 | Cut at a position, the request is the id before it and the parsed version after it. It is FormatException iff the version text does not parse. |
| ChocolateyHandler.LastIndexOfJoin | FluentStore.SDK/Handlers/ChocolateyHandler.cs:38 | In id + ":" + v with no ':' in v, the last ':' is the one after the id. |
| ChocolateyHandler.MatchUrl | FluentStore.SDK/Handlers/ChocolateyHandler.cs:72-76 | Null iff the case-insensitive http(s) package-page prefix is missing or no id character follows it. Otherwise the groups are those matched right after the prefix. A match has a non-empty id without '/' or whitespace and a version, when present, of digits and dots. |
| ChocolateyHandler.MatchGroups | FluentStore.SDK/Handlers/ChocolateyHandler.cs:72 | The id group is the maximal run of id characters. The version group is present iff a '/' and a digit or '.' follow the id, and it is then the maximal run of digits and dots after the '/'. |
| ChocolateyHandler.PrefixLength | FluentStore.SDK/Handlers/ChocolateyHandler.cs:72-73 | The https form of the package-page address matches, ignoring ASCII case, iff the result is its length. The http form matches, and the https one does not, iff the result is the http form's length. Otherwise -1. |
| ChocolateyHandler.PrefixLengthOfPackagePages | FluentStore.SDK/Handlers/ChocolateyHandler.cs:72-73 | Both package-page addresses, whatever follows them, and the https address with its letters in any case, are recognised by their full length. |
| ChocolateyHandler.GetPackageFromUrl | FluentStore.SDK/Handlers/ChocolateyHandler.cs:70-84 | As written: null iff the URL does not match. |
| ChocolateyHandler.GetPackageFromUrlAlwaysThrows | FluentStore.SDK/Handlers/ChocolateyHandler.cs:78-83 | As written, any matching URL whose id has no ':' ends in NotSupportedException, with or without a version. |
| ChocolateyHandler.GetPackageFromUrlFixed | FluentStore.SDK/Handlers/ChocolateyHandler.cs:70-84 | Corrected (version joined with ':'): null iff the URL does not match. |
| ChocolateyHandler.GetPackageSplitsFixedNss | FluentStore.SDK/Handlers/ChocolateyHandler.cs:37-41 | The URN of id ":" version is split back into exactly that id and version. |
| ChocolateyHandler.GetPackageFromUrlFixedResolves | FluentStore.SDK/Handlers/ChocolateyHandler.cs:70-84 | Corrected: a matching URL with a parsable version requests exactly the id and version in the URL. |
| ChocolateyHandler.GetUrlFromPackage | FluentStore.SDK/Handlers/ChocolateyHandler.cs:86-97 | ArgumentException iff the package is not a Chocolatey one. Otherwise the URL is the packages base URL + id without a version, and base URL + id + "/" + version with one. |
| ChocolateyHandler.UrlRoundTrip | FluentStore.SDK/Handlers/ChocolateyHandler.cs:72-94 | For an id without '/' or whitespace and a version of digits and dots, the built URL matches and gives back the same id and version. |
| ChocolateyHandler.MatchGroupsRoundTrip | FluentStore.SDK/Handlers/ChocolateyHandler.cs:72 | id, or id "/" version, reads back as those groups. |
| ChocolateyHandler.MatchGroupsWithVersion | FluentStore.SDK/Handlers/ChocolateyHandler.cs:72 | An id, '/', a version, then anything not continuing the version read back as that id and version. |
| ChocolateyHandler.UrlWithTrailingText | FluentStore.SDK/Handlers/ChocolateyHandler.cs:72 | The pattern has no end anchor: a package-page URL followed by text that does not continue the version still gives the id and version. |
| ChocolateyHandler.GitUrlWithExtraSegment | FluentStore.SDK/Handlers/ChocolateyHandler.cs:72 | ".../packages/git/2.40.0/extra" matches with id "git" and version "2.40.0". |
| AdGuardPackage.Segment | AdGuard/Models/Package.cs:32-37 | Null when the name is null. Otherwise present iff the index is below the number of '_'-separated segments, and then it is that segment, which never contains '_'. |
| AdGuardPackage.PackageFamily | AdGuard/Models/Package.cs:28-38 | Null iff the name is null. Otherwise it is segment 0 of the name split at '_': a prefix of the name free of '_', and the whole name when it has no '_'. |
| AdGuardPackage.PackageVersion | AdGuard/Models/Package.cs:40-50 | Null when segment 1 is missing. Otherwise it is the parse of segment 1, null iff `new Version` throws. |
| AdGuardPackage.Architecture | AdGuard/Models/Package.cs:52-62 | Present iff the name is present and has at least three segments, and then it is segment 2. |
| AdGuardPackage.PublisherId | AdGuard/Models/Package.cs:64-74 | Present iff the name is present and has at least five segments, and then it is segment 4 (segment 3 is skipped). |
| AdGuardPackage.SegmentOfJoin | AdGuard/Models/Package.cs:28-74 | For a name joined with '_' from fields free of '_', segment i is field i, or null past the last field; empty fields are kept. |
| AdGuardPackage.FullNameRoundTrip | AdGuard/Models/Package.cs:28-74 | For family_version_architecture_resource_publisher, each getter gives back the field it names, the version included. |
| AdGuardPackage.ShortNameHasNoPublisher | AdGuard/Models/Package.cs:52-74 | With fewer than five fields there is no publisher, and the architecture is null iff there are fewer than three; the family is still read. |

## Left out

- ZIP and XML parsing (`ZipArchive`, `XDocument`, XPath): the content-types `Default` entries and the manifest's architecture list are inputs. A missing content-types part is modelled as the NullReferenceException it causes; XML that fails to load is not modelled.
- `PackagedInstallerHelper.GetAppIcon` (FluentStore.SDK/Helpers/PackagedInstallerHelper.cs:208-255): nested archive I/O throughout.
- `PackagedInstallerHelper.GetCannotBeInstalledReason`: `Guard.IsNotNull(installerFile)` and the `Enum.Parse` of manifest architecture names happen before the gate and are not modelled; the gate starts from the parsed list.
- The running platform (`AnalyticsInfo.VersionInfo.DeviceFamily` through `PlatWindowsStringConverter.Parse`), the current architecture (`Package.Current`), the catalogue query, `BackgroundDownloader`, `StorageFolder` and rename, `PackageManager` and `Launcher` are parameters carrying their outcomes.
- `WeakReferenceMessenger`: each send is an appended message. The exception objects in failure messages are their message texts; the package reference each message carries is dropped.
- The platform names of `PlatWindows` and the member list of the enum are assumed (the enum's source is not part of this model); the message text uses `PlatformName`.
- `Handlers.MicrosoftStoreHandler.NAMESPACE_MSSTORE` is not part of this model; the URN namespace is assumed to be "msstore".
- `Urn.Parse` and FluentUrn escaping: a URN is its namespace and namespace-specific string as given; a namespace-specific string with characters needing escapes, or a `?`/`#` component, is not modelled. An empty namespace-specific string is assumed to parse: `MicrosoftStorePackage.GetUrn` builds "urn:msstore:" for a null or empty store id, and the model takes that as a URN whose namespace-specific string is empty, although section 2 of RFC 8141 requires it to be non-empty and FluentUrn is not part of this model. `GetPackageFromUrl` is modelled as if `Urn.Parse` keeps the built text unchanged, and the `url.ToString()` of the Flurl `Url` as the URL text.
- `ChocolateyHandler.GetPackage`: every exception `Version.Parse` can throw (ArgumentException for a wrong component count, ArgumentOutOfRangeException for a negative component, FormatException, OverflowException) is reported as FormatException. The call to the Chocolatey client and the `ChocolateyPackage` it builds are replaced by the request.
- `ChocolateyHandler.MatchUrl`: `RegexOptions.IgnoreCase` is modelled for ASCII letters only (culture-sensitive folding such as the Kelvin sign is not); `\d` is modelled as ASCII digits only, where .NET also accepts other Unicode decimal digits.
- `Numbers.ParseInt32`: trailing NUL characters, which .NET's number parser also accepts, and culture-specific sign strings are not modelled; the sign is '+' or '-'.
- `Versions.Parse`: `System.Version` reads each component with the invariant culture, so only the NUL-character tolerance above is missing from the model.
- `MicrosoftStoreImages.FamilyScreenshots`: `StartsWith` is modelled as ordinal; .NET's default is culture-sensitive. The `Cast<MicrosoftStoreImage>()` assumes every image is a store image.
- `MicrosoftStorePackage.Update`: a null product (`Guard.IsNotNull`) is not modelled. Partial writes made before `PackageFamilyNames?[0]` throws are not modelled: the error result carries no package. The rating fields, release date, product ratings, warning messages, capability lists and the `Model` property are not modelled.
- `MicrosoftStorePackage.DownloadPackageAsync`: `Path.Combine`'s rule for a rooted second path and `Path.GetDirectoryName` are not modelled; the path is the folder, '\', and the moniker. A null `PackageMoniker` or `PackageUri` cannot arise after a successful `PopulatePackageUri` and is not modelled. Progress reports arrive before the status code is known and are a parameter; their interleaving with other threads is not modelled.
- `PackageBase.Equals`: a null `other` is not modelled, because a record is never null; the source throws NullReferenceException there as well. FluentUrn's `Urn.Equals` is taken to be exact equality of namespace and namespace-specific string. The member reads the stored URN field. A subclass whose URN getter is lazy is modelled separately: `MicrosoftStorePackage.StoreEquals` reads both URNs through the getter.
- `MicrosoftStorePackage.FileName`: the volume root of a drive-relative path such as "C:name" is not treated as a separator.
- `PackagedInstallerHelper.Install`: the download item's path is assumed to be an absolute URI. `new Uri(path)` (FluentStore.SDK/Helpers/PackagedInstallerHelper.cs:113) throws UriFormatException after InstallStarted for any other path, such as an empty one, and that rejection is not modelled, so `InstallHasOneTerminal` does not cover it.
- Throwing collaborators: the trace lemmas (`TransferHasOneTerminal`, `DownloadPhase`, `DownloadFetchSucceeds`, `InstallHasOneTerminal`) and `Launch` assume that the external calls return. In the store download (FluentStore.SDK/PackageTypes/MicrosoftStorePackage.cs) those are `GetFolderFromPathAsync` (:124), `CreateFileAsync` (:126), `CreateDownload` (:130), `StartAsync` (:139), `GetResponseInformation` (:142), `GetInstallerType` (:152) with the `OpenStreamForReadAsync` inside it (FluentStore.SDK/Helpers/PackagedInstallerHelper.cs:151), `RenameAsync` (:154), `QueryDCATAsync` (:166) and `GetMainPackagesForProductAsync` (:167). In the helper (FluentStore.SDK/Helpers/PackagedInstallerHelper.cs) they are `AddPackageByUriAsync` (:113), `FindPackagesForUser` (:137), `GetAppListEntriesAsync` (:140) and `LaunchAsync` (:144). An exception from any of them ends the method with no further message; for example, one from `StartAsync` leaves no terminal download message.
- `PackageBase.DownloadPackageAsync(StorageFolder)` (FluentStore.SDK/PackageBase.cs:43) is abstract with no body to model; the Microsoft Store override takes an installer path instead, and that override is what is modelled.
- `PackageBase`: `ObservableObject` change notification, `ReleaseDate`, `ReviewSummary`, the `Model` property and the `ToString` override are not modelled. Prices are real numbers; only the `>= 0` comparison of the `double` matters.
- `AdGuardPackage.Package`: the `Uri` getter (System.Uri parsing) and `ExpiryDate` are not modelled.
- The handler registry, `Urn` parse/format round trips and search are outside the core. `UniformColumnPanel`, the view models and the settings and search pages are UI code outside the core.
- Concurrency of async continuations: every flow is a sequential function.

## Findings

| source | as written | input that shows it | evidently intended | confidence | as-written member | corrected member |
|---|---|---|---|---|---|---|
| FluentStore.SDK/PackageBase.cs:39 | `CanBeInstalled` compares the `Task<string>` returned by `GetCannotBeInstalledReason` with null, not the awaited reason | any Microsoft Store package, including one whose platform is allowed: the override always returns a task, so the result is false | true iff the awaited reason is null | not executed | PackageBase.CanBeInstalledAsWritten, MicrosoftStorePackage.StoreCanBeInstalled | PackageBase.CanBeInstalled |
| FluentStore.SDK/PackageTypes/MicrosoftStorePackage.cs:206-210 | `width` is never updated in the loop, so every hero image wider than 0 replaces the pick | heroes listed as 1920 wide then 640 wide: the 640-wide one is returned | the widest hero image | not executed | MicrosoftStoreImages.HeroImageAsWritten, MicrosoftStoreImages.HeroImageAsWrittenPicksNarrower | MicrosoftStoreImages.GetHeroImage |
| FluentStore.SDK/Handlers/ChocolateyHandler.cs:81 | the URL's version is appended to the URN with '.', but `GetPackage` splits at the last ':' | https://community.chocolatey.org/packages/git/2.40.0 builds urn:choco:git.2.40.0, which throws NotSupportedException | join with ':' so the version is found | not executed | ChocolateyHandler.GetPackageFromUrl, ChocolateyHandler.GetPackageFromUrlAlwaysThrows | ChocolateyHandler.GetPackageFromUrlFixed, ChocolateyHandler.GetPackageFromUrlFixedResolves |
| FluentStore.SDK/PackageTypes/MicrosoftStorePackage.cs:222-231 | each screenshot is inserted at its position index in the list built so far, which need not hold the screenshots before that position | screenshots listed at positions 2, 1, 0: the result holds positions 0, 2, 1 | the screenshots in position order | not executed | MicrosoftStoreImages.GetScreenshots, MicrosoftStoreImages.ScreenshotsOutOfPositionOrder | MicrosoftStoreImages.GetScreenshotsByPosition, MicrosoftStoreImages.ScreenshotsByPositionSorted |

=== FILE: adguard_package.dfy ===
/** The AdGuard store's package record: a download link whose `Name` is a package full
    name, read back segment by segment. Every getter swallows its exception and answers
    null instead. */
module AdGuardPackage {
  import opened Prelude
  import opened Strings
  import opened Versions

  /** `AdGuard.Models.Package`. `Url` is kept as text; `ExpiryDate` and the `Uri` getter
      are not modelled. */
  datatype Package = Package(name: Nullable<string>, url: Nullable<string>)

  /** The separator between the fields of a package full name. */
  const FieldSeparator: char := '_'

  /** `Name.Split('_')[index]` inside `try { … } catch { return null; }`: null when `Name`
      is null (NullReferenceException) or has fewer segments (IndexOutOfRangeException). */
  function Segment(name: Nullable<string>, index: nat): (r: Nullable<string>)
    ensures name.Null? ==> r.Null?
    ensures name.Some? ==> (r.Some? <==> index < |Split(name.value, FieldSeparator)|)
    ensures r.Some? ==> FieldSeparator !in r.value
    ensures r.Some? ==> r.value == Split(name.value, FieldSeparator)[index]
  {
    match name
    case Null => Null
    case Some(n) =>
      var parts := Split(n, FieldSeparator);
      SplitFreeOf(n, FieldSeparator);
      if index < |parts| then Some(parts[index]) else Null
  }

  /** `PackageFamily`: the first segment. Split never returns an empty array, so only a
      null `Name` yields null. */
  function PackageFamily(p: Package): (r: Nullable<string>)
    ensures r.Null? <==> p.name.Null?
    ensures r.Some? ==> StartsWith(p.name.value, r.value)
    ensures r.Some? ==> FieldSeparator !in r.value
    ensures r.Some? ==> r.value == Split(p.name.value, FieldSeparator)[0]
    ensures p.name.Some? && FieldSeparator !in p.name.value ==> r == p.name
  {
    if p.name.Some? then
      JoinSplit(p.name.value, FieldSeparator);
      JoinStartsWithFirst(Split(p.name.value, FieldSeparator), FieldSeparator);
      Segment(p.name, 0)
    else Null
  }

  /** `Version`: the second segment read by `new Version`, null when it is missing or the
      constructor throws. */
  function PackageVersion(p: Package): (r: Nullable<SysVersion>)
    ensures r.Some? ==> Segment(p.name, 1).Some? && Parse(Segment(p.name, 1).value) == r
    ensures Segment(p.name, 1).Some? ==> r == Parse(Segment(p.name, 1).value)
    ensures Segment(p.name, 1).Null? ==> r.Null?
  {
    match Segment(p.name, 1)
    case Null => Null
    case Some(text) =>
      match Parse(text)
      case Null => Null
      case Some(v) => Some(v)
  }

  /** `Architecture`: the third segment. */
  function Architecture(p: Package): (r: Nullable<string>)
    ensures r.Some? <==> p.name.Some? && |Split(p.name.value, FieldSeparator)| >= 3
    ensures r.Some? ==> r.value == Split(p.name.value, FieldSeparator)[2]
  {
    Segment(p.name, 2)
  }

  /** `PublisherId`: the fifth segment; the fourth, the resource id, has no getter. */
  function PublisherId(p: Package): (r: Nullable<string>)
    ensures r.Some? <==> p.name.Some? && |Split(p.name.value, FieldSeparator)| >= 5
    ensures r.Some? ==> r.value == Split(p.name.value, FieldSeparator)[4]
  {
    Segment(p.name, 4)
  }

  /** The text before the first separator of a join is the first part. */
  lemma JoinStartsWithFirst(parts: seq<string>, sep: char)
    requires |parts| >= 1
    ensures StartsWith(Join(parts, sep), parts[0])
  {
    if |parts| > 1 {
      assert Join(parts, sep)[..|parts[0]|] == parts[0];
    }
  }

  /** A name joined from separator-free fields reads back field `index`, or null past the
      last field. */
  lemma SegmentOfJoin(fields: seq<string>, index: nat)
    requires |fields| >= 1 && FreeOf(fields, FieldSeparator)
    ensures Segment(Some(Join(fields, FieldSeparator)), index)
         == if index < |fields| then Some(fields[index]) else Null
  {
    SplitJoin(fields, FieldSeparator);
  }

  /** The package full name `family_version_architecture_resource_publisher`. */
  function FullName(family: string, version: SysVersion, architecture: string, resourceId: string, publisherId: string): string {
    Join([family, ToString(version), architecture, resourceId, publisherId], FieldSeparator)
  }

  /** The text of a version has no field separator in it. */
  lemma VersionTextHasNoSeparator(v: SysVersion)
    ensures FieldSeparator !in ToString(v)
  {
    var texts := ComponentTexts(v.parts);
    assert FreeOf(texts, FieldSeparator) by {
      forall i | 0 <= i < |texts| ensures FieldSeparator !in texts[i] {
        assert IsDigits(texts[i]);
        assert forall j :: 0 <= j < |texts[i]| ==> IsDigit(texts[i][j]) && texts[i][j] != FieldSeparator;
      }
    }
    JoinAvoids(texts, '.', FieldSeparator);
  }

  /** Every getter reads back the field it names from a well-formed full name. */
  lemma FullNameRoundTrip(family: string, version: SysVersion, architecture: string, resourceId: string, publisherId: string, url: Nullable<string>)
    requires FieldSeparator !in family && FieldSeparator !in architecture
    requires FieldSeparator !in resourceId && FieldSeparator !in publisherId
    ensures var p := Package(Some(FullName(family, version, architecture, resourceId, publisherId)), url);
      && PackageFamily(p) == Some(family)
      && PackageVersion(p) == Some(version)
      && Architecture(p) == Some(architecture)
      && PublisherId(p) == Some(publisherId)
  {
    var fields := [family, ToString(version), architecture, resourceId, publisherId];
    VersionTextHasNoSeparator(version);
    assert FreeOf(fields, FieldSeparator);
    SegmentOfJoin(fields, 0);
    SegmentOfJoin(fields, 1);
    SegmentOfJoin(fields, 2);
    SegmentOfJoin(fields, 4);
    ParseToString(version);
  }

  /** A name with fewer than five fields has no publisher, and one with fewer than three
      no architecture, while the family is still read. */
  lemma ShortNameHasNoPublisher(fields: seq<string>, url: Nullable<string>)
    requires 1 <= |fields| < 5 && FreeOf(fields, FieldSeparator)
    ensures var p := Package(Some(Join(fields, FieldSeparator)), url);
      && PackageFamily(p) == Some(fields[0])
      && PublisherId(p).Null?
      && (Architecture(p).Null? <==> |fields| < 3)
  {
    SegmentOfJoin(fields, 0);
    SegmentOfJoin(fields, 2);
    SegmentOfJoin(fields, 4);
  }
}

=== FILE: chocolatey_handler.dfy ===
/** `ChocolateyHandler`: the community package source's URN split, its package-page URL
    matcher and its URL builder. The Chocolatey client calls are replaced by the request
    they would make. */
module ChocolateyHandler {
  import opened Prelude
  import opened Strings
  import opened Versions
  import opened PackageBase

  /** `NAMESPACE_CHOCO`. */
  const NamespaceChoco: string := "choco"

  /** The address of a package page, without the package. */
  const PackagesUrl: string := "https://community.chocolatey.org/packages/"

  /** The same address with the plain-HTTP scheme the matcher also accepts. */
  const PackagesUrlHttp: string := "http://community.chocolatey.org/packages/"

  /** The lookup `GetPackage` hands to `Choco.GetPackageAsync`. */
  datatype PackageRequest = PackageRequest(id: string, version: SysVersion)

  /** `GetPackage(urn)`: the namespace must be "choco"; the namespace-specific string is cut
      at its last ':'. No ':' past the first character means no version, which the client
      library cannot look up. */
  function GetPackage(urn: Urn): (r: Result<PackageRequest, Exception>)
    ensures urn.namespace != NamespaceChoco ==> r == Err(ArgumentException)
    ensures urn.namespace == NamespaceChoco && LastIndexOf(urn.nss, ':') <= 0 ==> r == Err(NotSupportedException)
    ensures urn.namespace == NamespaceChoco && LastIndexOf(urn.nss, ':') > 0
            ==> r == RequestAt(urn.nss, LastIndexOf(urn.nss, ':'))
  {
    if urn.namespace != NamespaceChoco then Err(ArgumentException)
    else if LastIndexOf(urn.nss, ':') <= 0 then Err(NotSupportedException)
    else RequestAt(urn.nss, LastIndexOf(urn.nss, ':'))
  }

  /** The request for a namespace-specific string cut at position `i`: the id before it and
      the version after it, or FormatException when `Version.Parse` rejects the version. */
  function RequestAt(nss: string, i: nat): (r: Result<PackageRequest, Exception>)
    requires i < |nss|
    ensures r.Ok? <==> Parse(nss[i + 1..]).Some?
    ensures r.Ok? ==> r.value.id == nss[..i] && Some(r.value.version) == Parse(nss[i + 1..])
    ensures r.Err? ==> r.error == FormatException
  {
    var parsed := Parse(nss[i + 1..]);
    if parsed.Null? then Err(FormatException)
    else Ok(PackageRequest(nss[..i], parsed.value))
  }

  /** The last `c` of `a + [c] + b` is the one after `a` when `b` has none. */
  lemma {:induction false} LastIndexOfJoin(a: string, c: char, b: string)
    requires c !in b
    ensures LastIndexOf(a + [c] + b, c) == |a|
    decreases |b|
  {
    var s := a + [c] + b;
    if |b| > 0 {
      assert s[|s| - 1] == b[|b| - 1];
      assert s[..|s| - 1] == a + [c] + b[..|b| - 1];
      LastIndexOfJoin(a, c, b[..|b| - 1]);
    }
  }

  /** `\s` of .NET regular expressions: `[\f\n\r\t\v\x85\p{Z}]`. */
  predicate IsRegexSpace(c: char) {
    c in {'\t', '\n', '\U{000B}', '\U{000C}', '\r', ' ', '\U{0085}', '\U{00A0}', '\U{1680}',
          '\U{2028}', '\U{2029}', '\U{202F}', '\U{205F}', '\U{3000}'}
    || '\U{2000}' <= c <= '\U{200A}'
  }

  /** A character of the id group `[^\/\s]`. */
  predicate IsIdChar(c: char) {
    c != '/' && !IsRegexSpace(c)
  }

  /** A character of the version group `[\d.]`, ASCII digits only. */
  predicate IsVersionChar(c: char) {
    IsDigit(c) || c == '.'
  }

  /** A non-empty text every character of which is an id character. */
  predicate IsIdText(s: string) {
    |s| > 0 && forall i :: 0 <= i < |s| ==> IsIdChar(s[i])
  }

  /** A non-empty text every character of which is a version character. */
  predicate IsVersionText(s: string) {
    |s| > 0 && forall i :: 0 <= i < |s| ==> IsVersionChar(s[i])
  }

  /** Length of the longest prefix of `s` made of id characters. */
  function IdRun(s: string): (n: nat)
    ensures n <= |s|
    ensures forall i :: 0 <= i < n ==> IsIdChar(s[i])
    ensures n < |s| ==> !IsIdChar(s[n])
  {
    if |s| == 0 || !IsIdChar(s[0]) then 0 else 1 + IdRun(s[1..])
  }

  /** Length of the longest prefix of `s` made of version characters. */
  function VersionRun(s: string): (n: nat)
    ensures n <= |s|
    ensures forall i :: 0 <= i < n ==> IsVersionChar(s[i])
    ensures n < |s| ==> !IsVersionChar(s[n])
  {
    if |s| == 0 || !IsVersionChar(s[0]) then 0 else 1 + VersionRun(s[1..])
  }

  /** The named groups of a match: `id`, and `version` when that group took part. */
  datatype UrlMatch = UrlMatch(id: string, version: Nullable<string>)

  /** Whether `url` begins with `prefix`, ASCII letters compared ignoring case. */
  predicate StartsWithIgnoreCase(url: string, prefix: string) {
    |url| >= |prefix| && EqualsIgnoreCase(url[..|prefix|], prefix)
  }

  /** Length of the literal part of the pattern `^https?:\/\/community\.chocolatey\.org\/packages\/`
      at the start of `url`, compared ignoring case, or -1. The optional 's' is greedy, and
      giving it back cannot help because ':' would then have to match it. */
  function PrefixLength(url: string): (n: int)
    ensures n == -1 || n == |PackagesUrl| || n == |PackagesUrlHttp|
    ensures n != -1 ==> n <= |url|
    ensures n == |PackagesUrl| <==> StartsWithIgnoreCase(url, PackagesUrl)
    ensures n == |PackagesUrlHttp| <==> !StartsWithIgnoreCase(url, PackagesUrl) && StartsWithIgnoreCase(url, PackagesUrlHttp)
  {
    if StartsWithIgnoreCase(url, PackagesUrl) then |PackagesUrl|
    else if StartsWithIgnoreCase(url, PackagesUrlHttp) then |PackagesUrlHttp|
    else -1
  }

  /** Both package-page addresses, whatever follows them, and with their letters in any case,
      are recognised by their full length. */
  lemma PrefixLengthOfPackagePages(rest: string, url: string)
    requires |url| >= |PackagesUrl| && forall i :: 0 <= i < |PackagesUrl| ==> ToLowerAscii(url[i]) == PackagesUrl[i]
    ensures PrefixLength(PackagesUrl + rest) == |PackagesUrl|
    ensures PrefixLength(PackagesUrlHttp + rest) == |PackagesUrlHttp|
    ensures PrefixLength(url) == |PackagesUrl|
  {
    assert (PackagesUrl + rest)[..|PackagesUrl|] == PackagesUrl;
    assert (PackagesUrlHttp + rest)[..|PackagesUrlHttp|] == PackagesUrlHttp;
    assert PackagesUrlHttp[4] == ':' && PackagesUrl[4] == 's';
    assert !StartsWithIgnoreCase(PackagesUrlHttp + rest, PackagesUrl) by {
      if |PackagesUrlHttp + rest| >= |PackagesUrl| {
        assert (PackagesUrlHttp + rest)[..|PackagesUrl|][4] == ':';
      }
    }
    assert forall i :: 0 <= i < |PackagesUrl| ==> ToLowerAscii(PackagesUrl[i]) == PackagesUrl[i];
  }

  /** The groups matched in what follows the literal part: a maximal id run, then, when
      a '/' and at least one version character follow it, the maximal version run. */
  function MatchGroups(after: string): (m: Nullable<UrlMatch>)
    ensures m.Null? <==> IdRun(after) == 0
    ensures m.Some? ==> IsIdText(m.value.id) && |m.value.id| <= |after| && after[..|m.value.id|] == m.value.id
    ensures m.Some? && |m.value.id| < |after| ==> !IsIdChar(after[|m.value.id|])
    ensures m.Some? ==> var n := |m.value.id|;
      (m.value.version.Some? <==> n + 1 < |after| && after[n] == '/' && IsVersionChar(after[n + 1]))
    ensures m.Some? && m.value.version.Some? ==> var start := |m.value.id| + 1;
      var v := m.value.version.value;
      && IsVersionText(v) && start + |v| <= |after| && after[start..start + |v|] == v
      && (start + |v| < |after| ==> !IsVersionChar(after[start + |v|]))
  {
    var n := IdRun(after);
    if n == 0 then Null
    else
      var version :=
        if n + 1 < |after| && after[n] == '/' && IsVersionChar(after[n + 1])
        then
          var k := VersionRun(after[n + 1..]);
          assert after[n + 1..n + 1 + k] == after[n + 1..][..k];
          Some(after[n + 1..n + 1 + k])
        else Null;
      Some(UrlMatch(after[..n], version))
  }

  /** The match of
      `^https?:\/\/community\.chocolatey\.org\/packages\/(?<id>[^\/\s]+)(?:\/(?<version>[\d.]+))?`
      with `RegexOptions.IgnoreCase`, or null. There is no end anchor, so anything may follow.
      The id run is maximal because the optional group after it can always match empty. */
  function MatchUrl(url: string): (m: Nullable<UrlMatch>)
    ensures m.Null? <==> PrefixLength(url) == -1 || IdRun(url[PrefixLength(url)..]) == 0
    ensures m.Some? ==> IsIdText(m.value.id) && (m.value.version.Some? ==> IsVersionText(m.value.version.value))
    ensures PrefixLength(url) != -1 ==> m == MatchGroups(url[PrefixLength(url)..])
  {
    var start := PrefixLength(url);
    if start == -1 then Null else MatchGroups(url[start..])
  }

  /** The namespace-specific string `GetPackageFromUrl` builds from a match: the id, then
      '.' and the version when there is one. */
  function NssFromMatchAsWritten(m: UrlMatch): string {
    m.id + (if m.version.Some? then "." + m.version.value else "")
  }

  /** `GetPackageFromUrl(url)` as written: null when the URL does not match, else the result
      of `GetPackage` on the URN it builds. */
  function GetPackageFromUrl(url: string): (r: Nullable<Result<PackageRequest, Exception>>)
    ensures r.Null? <==> MatchUrl(url).Null?
  {
    match MatchUrl(url)
    case Null => Null
    case Some(m) => Some(GetPackage(Urn(NamespaceChoco, NssFromMatchAsWritten(m))))
  }

  /** As written, a matching URL whose id has no ':' never yields a package: the version is
      joined with '.', so `GetPackage` finds no ':' and throws NotSupportedException. */
  lemma GetPackageFromUrlAlwaysThrows(url: string)
    requires MatchUrl(url).Some? && ':' !in MatchUrl(url).value.id
    ensures GetPackageFromUrl(url) == Some(Err(NotSupportedException))
  {
    var m := MatchUrl(url).value;
    var nss := NssFromMatchAsWritten(m);
    if m.version.Some? {
      var v := m.version.value;
      assert ':' !in v by {
        assert forall k :: 0 <= k < |v| ==> IsVersionChar(v[k]) && v[k] != ':';
      }
      assert nss == m.id + "." + v;
    }
    assert ':' !in nss;
  }

  /** The namespace-specific string with the separator `GetPackage` splits on. */
  function NssFromMatch(m: UrlMatch): string {
    m.id + (if m.version.Some? then ":" + m.version.value else "")
  }

  /** `GetPackageFromUrl(url)` with the version joined by ':'. */
  function GetPackageFromUrlFixed(url: string): (r: Nullable<Result<PackageRequest, Exception>>)
    ensures r.Null? <==> MatchUrl(url).Null?
  {
    match MatchUrl(url)
    case Null => Null
    case Some(m) => Some(GetPackage(Urn(NamespaceChoco, NssFromMatch(m))))
  }

  /** With ':' as the separator, the URN built from an id and a version made of digits
      and dots is cut back into that id and version. */
  lemma GetPackageSplitsFixedNss(m: UrlMatch)
    requires IsIdText(m.id) && m.version.Some? && IsVersionText(m.version.value)
    requires Parse(m.version.value).Some?
    ensures GetPackage(Urn(NamespaceChoco, NssFromMatch(m))) == Ok(PackageRequest(m.id, Parse(m.version.value).value))
  {
    var v := m.version.value;
    assert ':' !in v by {
      assert forall k :: 0 <= k < |v| ==> IsVersionChar(v[k]) && v[k] != ':';
    }
    var nss := NssFromMatch(m);
    assert nss == m.id + [':'] + v;
    LastIndexOfJoin(m.id, ':', v);
    var i := LastIndexOf(nss, ':');
    assert i == |m.id| > 0;
    assert nss[..i] == m.id;
    assert nss[i + 1..] == v;
    var urn := Urn(NamespaceChoco, nss);
    assert GetPackage(urn) == RequestAt(nss, i);
    assert RequestAt(nss, i) == Ok(PackageRequest(m.id, Parse(v).value));
  }

  /** With ':' as the separator, a matching URL with a version `new Version` accepts asks the
      client for exactly the id and version in the URL, whatever the id contains. */
  lemma GetPackageFromUrlFixedResolves(url: string)
    requires MatchUrl(url).Some? && MatchUrl(url).value.version.Some?
    requires Parse(MatchUrl(url).value.version.value).Some?
    ensures GetPackageFromUrlFixed(url)
         == Some(Ok(PackageRequest(MatchUrl(url).value.id, Parse(MatchUrl(url).value.version.value).value)))
  {
    GetPackageSplitsFixedNss(MatchUrl(url).value);
  }

  /** The package kinds `GetUrlFromPackage` distinguishes. */
  datatype HandlerPackage = ChocolateyPackage(packageId: string, version: Nullable<string>) | OtherPackage

  /** `GetUrlFromPackage(package)`: the package page, plus "/" and the version when the
      package has one; any other kind of package is rejected. */
  function GetUrlFromPackage(p: HandlerPackage): (r: Result<string, Exception>)
    ensures p.OtherPackage? <==> r == Err(ArgumentException)
    ensures p.ChocolateyPackage? ==> r.Ok? && StartsWith(r.value, PackagesUrl + p.packageId)
    ensures p.ChocolateyPackage? && p.version.Null? ==> r.value == PackagesUrl + p.packageId
    ensures p.ChocolateyPackage? && p.version.Some? ==> r.value == PackagesUrl + p.packageId + "/" + p.version.value
  {
    match p
    case OtherPackage => Err(ArgumentException)
    case ChocolateyPackage(id, version) =>
      var url := PackagesUrl + id + (if version.Some? then "/" + version.value else "");
      assert url[..|PackagesUrl + id|] == PackagesUrl + id;
      Ok(url)
  }

  /** The groups read back from an id followed by nothing or by '/' and a version are that
      id and version. */
  lemma MatchGroupsRoundTrip(id: string, version: Nullable<string>)
    requires IsIdText(id)
    requires version.Some? ==> IsVersionText(version.value)
    ensures MatchGroups(id + (if version.Some? then "/" + version.value else "")) == Some(UrlMatch(id, version))
  {
    if version.Some? {
      MatchGroupsWithVersion(id, version.value, []);
      assert id + "/" + version.value + [] == id + ("/" + version.value);
    } else {
      IdRunStops(id, []);
      assert id + [] == id;
      assert (id + "")[..|id|] == id;
    }
  }

  /** An id, '/', a version and then anything that does not continue the version read back
      as that id and version. */
  lemma MatchGroupsWithVersion(id: string, v: string, rest: string)
    requires IsIdText(id) && IsVersionText(v)
    requires rest == [] || !IsVersionChar(rest[0])
    ensures MatchGroups(id + "/" + v + rest) == Some(UrlMatch(id, Some(v)))
  {
    var after := id + "/" + v + rest;
    var n := |id|;
    assert after == id + ("/" + v + rest);
    IdRunStops(id, "/" + v + rest);
    assert after[..n] == id;
    assert after[n] == '/' && after[n + 1] == v[0];
    assert after[n + 1..] == v + rest;
    VersionRunStops(v, rest);
    assert after[n + 1..n + 1 + |v|] == v;
    assert MatchGroups(after) == Some(UrlMatch(after[..n], Some(after[n + 1..n + 1 + VersionRun(after[n + 1..])])));
  }

  /** The URL built for a package whose id has no '/' or whitespace and whose version (if
      any) is digits and dots matches the pattern and gives back that id and version. */
  lemma UrlRoundTrip(id: string, version: Nullable<string>)
    requires IsIdText(id)
    requires version.Some? ==> IsVersionText(version.value)
    ensures MatchUrl(GetUrlFromPackage(ChocolateyPackage(id, version)).value) == Some(UrlMatch(id, version))
  {
    var suffix := if version.Some? then "/" + version.value else "";
    var url := PackagesUrl + id + suffix;
    assert GetUrlFromPackage(ChocolateyPackage(id, version)).value == url;
    assert url[..|PackagesUrl|] == PackagesUrl;
    assert PrefixLength(url) == |PackagesUrl|;
    assert url[|PackagesUrl|..] == id + suffix;
    MatchGroupsRoundTrip(id, version);
  }

  /** The version group stops at the first character that is not a digit or '.', so text
      after the version (a further path segment, a query) is ignored. */
  lemma UrlWithTrailingText(id: string, v: string, rest: string)
    requires IsIdText(id) && IsVersionText(v)
    requires rest == [] || !IsVersionChar(rest[0])
    ensures MatchUrl(PackagesUrl + id + "/" + v + rest) == Some(UrlMatch(id, Some(v)))
  {
    var after := id + "/" + v + rest;
    var url := PackagesUrl + id + "/" + v + rest;
    assert url == PackagesUrl + after;
    PrefixLengthOfPackagePages(after, PackagesUrl);
    assert url[|PackagesUrl|..] == after;
    MatchGroupsWithVersion(id, v, rest);
  }

  /** A concrete instance: the version of ".../packages/git/2.40.0/extra" is "2.40.0". */
  lemma GitUrlWithExtraSegment()
    ensures MatchUrl(PackagesUrl + "git/2.40.0/extra") == Some(UrlMatch("git", Some("2.40.0")))
  {
    assert IsVersionText("2.40.0");
    assert PackagesUrl + "git/2.40.0/extra" == PackagesUrl + "git" + "/" + "2.40.0" + "/extra";
    UrlWithTrailingText("git", "2.40.0", "/extra");
  }

  /** The id run of an id followed by nothing or by '/' is the id. */
  lemma {:induction false} IdRunStops(id: string, suffix: string)
    requires forall i :: 0 <= i < |id| ==> IsIdChar(id[i])
    requires suffix == [] || suffix[0] == '/'
    ensures IdRun(id + suffix) == |id|
    decreases |id|
  {
    if |id| > 0 {
      assert (id + suffix)[1..] == id[1..] + suffix;
      IdRunStops(id[1..], suffix);
    } else {
      assert id + suffix == suffix;
    }
  }

  /** The version run of a text made of version characters is the whole text. */
  lemma VersionRunWhole(v: string)
    requires forall i :: 0 <= i < |v| ==> IsVersionChar(v[i])
    ensures VersionRun(v) == |v|
  {
    VersionRunStops(v, []);
    assert v + [] == v;
  }

  /** The version run of version characters followed by nothing or by another character is
      those characters. */
  lemma {:induction false} VersionRunStops(v: string, rest: string)
    requires forall i :: 0 <= i < |v| ==> IsVersionChar(v[i])
    requires rest == [] || !IsVersionChar(rest[0])
    ensures VersionRun(v + rest) == |v|
    decreases |v|
  {
    if |v| > 0 {
      assert (v + rest)[1..] == v[1..] + rest;
      VersionRunStops(v[1..], rest);
    } else {
      assert v + rest == rest;
    }
  }
}

=== FILE: messages.dfy ===
/** The lifecycle messages the core sends through `WeakReferenceMessenger.Default`. A flow's
    sends are modelled as the list of messages it appends, in order. Every message also carries
    the package that sent it; within one flow that is always the same package, so it is
    omitted here. */
module Messages {

  datatype Message =
    | FetchStarted
    | FetchCompleted
    | FetchFailed(error: string)
    | DownloadStarted
    | DownloadProgress(received: nat, total: nat)
    | DownloadCompleted(file: string)
    | DownloadFailed(error: string)
    | InstallStarted
    | InstallProgress(fraction: real)
    | InstallCompleted
    | InstallFailed(error: string)

  /** The lifecycle step a message belongs to. */
  datatype Step = FetchStep | DownloadStep | InstallStep

  function StepOf(m: Message): Step {
    match m
    case FetchStarted | FetchCompleted | FetchFailed(_) => FetchStep
    case DownloadStarted | DownloadProgress(_, _) | DownloadCompleted(_) | DownloadFailed(_) => DownloadStep
    case InstallStarted | InstallProgress(_) | InstallCompleted | InstallFailed(_) => InstallStep
  }

  /** A message that ends its step: a Completed or a Failed message. */
  predicate IsTerminal(m: Message) {
    m.FetchCompleted? || m.FetchFailed? || m.DownloadCompleted? || m.DownloadFailed?
    || m.InstallCompleted? || m.InstallFailed?
  }

  /** A progress report. */
  predicate IsProgress(m: Message) {
    m.DownloadProgress? || m.InstallProgress?
  }

  /** Whether `m` ends step `step`. */
  predicate Ends(m: Message, step: Step) {
    IsTerminal(m) && StepOf(m) == step
  }

  /** How many messages of `events` end step `step`: none exactly when no message does, and
      never more than there are messages. */
  function TerminalCount(events: seq<Message>, step: Step): (n: nat)
    ensures n <= |events|
    ensures n == 0 <==> forall i :: 0 <= i < |events| ==> !Ends(events[i], step)
  {
    if |events| == 0 then 0
    else
      var front := events[..|events| - 1];
      assert forall i :: 0 <= i < |front| ==> front[i] == events[i];
      TerminalCount(front, step) + (if Ends(events[|events| - 1], step) then 1 else 0)
  }

  /** Counting terminals distributes over concatenation. */
  lemma {:induction false} TerminalCountAppend(a: seq<Message>, b: seq<Message>, step: Step)
    ensures TerminalCount(a + b, step) == TerminalCount(a, step) + TerminalCount(b, step)
    decreases |b|
  {
    if |b| > 0 {
      assert (a + b)[..|a + b| - 1] == a + b[..|b| - 1];
      TerminalCountAppend(a, b[..|b| - 1], step);
    } else {
      assert a + b == a;
    }
  }
}

=== FILE: microsoft_store_images.dfy ===
/** The image choices of `MicrosoftStorePackage`: the app icon, the hero image and the
    ordered screenshots for the running device family. */
module MicrosoftStoreImages {
  import opened Prelude
  import opened Strings
  import opened Numbers
  import opened PackageBase

  /** `Images.FindAll(i => i.ImageType == kind)`. */
  function OfKind(images: seq<Image>, kind: ImageType): (r: seq<Image>)
    ensures |r| <= |images|
    ensures forall i :: 0 <= i < |r| ==> r[i].kind == kind
  {
    if |images| == 0 then []
    else (if images[0].kind == kind then [images[0]] else []) + OfKind(images[1..], kind)
  }

  /** The images kept are exactly those of the kind. */
  lemma OfKindMembers(images: seq<Image>, kind: ImageType)
    ensures forall x :: x in OfKind(images, kind) <==> x in images && x.kind == kind
  {
    if |images| > 0 {
      OfKindMembers(images[1..], kind);
      assert forall x :: x in images <==> x == images[0] || x in images[1..];
    }
  }

  /** The images of the kind among one image. */
  lemma OfKindSingle(x: Image, kind: ImageType)
    ensures OfKind([x], kind) == if x.kind == kind then [x] else []
  {
    assert [x][1..] == [];
  }

  /** `FindAll` keeps the listing order: filtering a concatenation filters each part. */
  lemma {:induction false} OfKindKeepsOrder(a: seq<Image>, b: seq<Image>, kind: ImageType)
    ensures OfKind(a + b, kind) == OfKind(a, kind) + OfKind(b, kind)
    decreases |a|
  {
    if |a| > 0 {
      var head := if a[0].kind == kind then [a[0]] else [];
      assert (a + b)[0] == a[0];
      assert (a + b)[1..] == a[1..] + b;
      calc {
        OfKind(a + b, kind);
        head + OfKind(a[1..] + b, kind);
        { OfKindKeepsOrder(a[1..], b, kind); }
        head + (OfKind(a[1..], kind) + OfKind(b, kind));
        (head + OfKind(a[1..], kind)) + OfKind(b, kind);
        OfKind(a, kind) + OfKind(b, kind);
      }
    } else {
      assert a + b == b;
    }
  }

  /** Where the `k`-th image of the kind is listed: the images of the kind before it are the
      first `k` of them. */
  function KindIndex(images: seq<Image>, kind: ImageType, k: nat): (i: nat)
    requires k < |OfKind(images, kind)|
    ensures i < |images| && images[i] == OfKind(images, kind)[k]
    ensures OfKind(images[..i], kind) == OfKind(images, kind)[..k]
    decreases |images|
  {
    var head := if images[0].kind == kind then [images[0]] else [];
    if |head| == 1 && k == 0 then
      assert images[..0] == [];
      0
    else
      var i' := KindIndex(images[1..], kind, k - |head|);
      KindIndexStep(images, kind, k - |head|, i');
      i' + 1
  }

  /** The inductive step of `KindIndex`: an index found in the tail, one further on. */
  lemma KindIndexStep(images: seq<Image>, kind: ImageType, k': nat, i': nat)
    requires |images| > 0
    requires k' < |OfKind(images[1..], kind)| && i' < |images| - 1
    requires images[1..][i'] == OfKind(images[1..], kind)[k']
    requires OfKind(images[1..][..i'], kind) == OfKind(images[1..], kind)[..k']
    ensures var head := if images[0].kind == kind then [images[0]] else [];
      && images[i' + 1] == OfKind(images, kind)[|head| + k']
      && OfKind(images[..i' + 1], kind) == OfKind(images, kind)[..|head| + k']
  {
    var tail := images[1..];
    var head := if images[0].kind == kind then [images[0]] else [];
    var icons := OfKind(images, kind);
    assert icons == head + OfKind(tail, kind);
    assert images[..i' + 1][0] == images[0];
    assert images[..i' + 1][1..] == tail[..i'];
    assert OfKind(images[..i' + 1], kind) == head + OfKind(tail, kind)[..k'];
    TakeConcat(head, OfKind(tail, kind), k');
  }

  /** Taking past the first part of a concatenation. */
  lemma TakeConcat<T>(a: seq<T>, b: seq<T>, n: nat)
    requires n < |b|
    ensures (a + b)[..|a| + n] == a + b[..n]
    ensures (a + b)[|a| + n] == b[n]
  {
  }

  /** `OrderByDescending(i => i.Width).First()`: the first image of maximal width (the sort
      is stable). */
  function Widest(icons: seq<Image>): (k: nat)
    requires |icons| > 0
    ensures k < |icons|
    ensures forall j :: 0 <= j < |icons| ==> icons[j].width <= icons[k].width
    ensures forall j :: 0 <= j < k ==> icons[j].width < icons[k].width
  {
    if |icons| == 1 then 0
    else
      var n := |icons| - 1;
      var k := Widest(icons[..n]);
      assert forall j :: 0 <= j < n ==> icons[..n][j] == icons[j];
      if icons[k].width < icons[n].width then n else k
  }

  /** The kind an icon is taken from: Tile if any, else Logo if any, else Poster. */
  function IconKind(images: seq<Image>): (r: ImageType)
    ensures r == Tile <==> exists x :: x in images && x.kind == Tile
    ensures r == Logo <==> (forall x :: x in images ==> x.kind != Tile) && exists x :: x in images && x.kind == Logo
    ensures r == Poster <==> forall x :: x in images ==> x.kind != Tile && x.kind != Logo
  {
    OfKindMembers(images, Tile);
    OfKindMembers(images, Logo);
    assert OfKind(images, Tile) != [] ==> OfKind(images, Tile)[0] in OfKind(images, Tile);
    assert OfKind(images, Logo) != [] ==> OfKind(images, Logo)[0] in OfKind(images, Logo);
    if OfKind(images, Tile) != [] then Tile
    else if OfKind(images, Logo) != [] then Logo
    else Poster
  }

  /** `GetAppIcon()`: the widest image of the first non-empty class among tiles, logos and
      posters; when all three are empty, `Guard.IsNotEmpty` throws. */
  function GetAppIcon(images: seq<Image>): (r: Result<Image, Exception>)
    ensures r.Err? <==> forall x :: x in images ==> x.kind !in {Tile, Logo, Poster}
    ensures r.Err? ==> r.error == ArgumentException
    ensures r.Ok? ==> r.value in images && r.value.kind == IconKind(images)
    ensures r.Ok? && r.value.kind != Tile ==> forall x :: x in images ==> x.kind != Tile
    ensures r.Ok? && r.value.kind == Poster ==> forall x :: x in images ==> x.kind != Logo
    ensures r.Ok? ==> forall x :: x in images && x.kind == r.value.kind ==> x.width <= r.value.width
    ensures r.Ok? ==> exists i :: (
      && 0 <= i < |images| && images[i] == r.value
      && forall j :: 0 <= j < i && images[j].kind == r.value.kind ==> images[j].width < r.value.width)
  {
    var kind := IconKind(images);
    var icons := OfKind(images, kind);
    OfKindMembers(images, kind);
    if icons == [] then
      Err(ArgumentException)
    else
      assert icons[0] in icons;
      WidestOfKind(images, kind);
      FirstWidestOfKind(images, kind);
      Ok(icons[Widest(icons)])
  }

  /** The widest image of a kind is listed and at least as wide as every image of the kind. */
  lemma WidestOfKind(images: seq<Image>, kind: ImageType)
    requires OfKind(images, kind) != []
    ensures var icons := OfKind(images, kind);
      && icons[Widest(icons)] in images
      && forall x :: x in images && x.kind == kind ==> x.width <= icons[Widest(icons)].width
  {
    var icons := OfKind(images, kind);
    OfKindMembers(images, kind);
    forall x | x in images && x.kind == kind ensures x.width <= icons[Widest(icons)].width {
      var j :| 0 <= j < |icons| && icons[j] == x;
    }
  }

  /** The widest image of a kind is listed after every image of the kind that is narrower
      and after none that is as wide. */
  lemma FirstWidestOfKind(images: seq<Image>, kind: ImageType)
    requires OfKind(images, kind) != []
    ensures var icons := OfKind(images, kind);
      exists i :: (
        && 0 <= i < |images| && images[i] == icons[Widest(icons)]
        && forall j :: 0 <= j < i && images[j].kind == kind ==> images[j].width < icons[Widest(icons)].width)
  {
    var icons := OfKind(images, kind);
    var k := Widest(icons);
    var i := KindIndex(images, kind, k);
    forall j | 0 <= j < i && images[j].kind == kind ensures images[j].width < icons[k].width {
      assert images[j] == images[..i][j];
      OfKindMembers(images[..i], kind);
      assert images[j] in OfKind(images[..i], kind);
      var j' :| 0 <= j' < k && icons[..k][j'] == images[j];
      assert icons[j'] == images[j];
    }
  }

  /** `GetHeroImage()` as written: `width` stays 0, so every hero image wider than 0
      replaces the previous pick and the last such image wins. */
  function HeroImageAsWritten(images: seq<Image>): (r: Nullable<Image>)
    ensures r.Null? <==> forall i :: 0 <= i < |images| ==> !(images[i].kind == Hero && images[i].width > 0)
    ensures r.Some? ==> exists i :: (
      && 0 <= i < |images| && images[i] == r.value && r.value.kind == Hero && r.value.width > 0
      && forall j :: i < j < |images| ==> !(images[j].kind == Hero && images[j].width > 0))
  {
    if |images| == 0 then Null
    else
      var n := |images| - 1;
      if images[n].kind == Hero && images[n].width > 0 then Some(images[n])
      else
        var r := HeroImageAsWritten(images[..n]);
        assert forall i :: 0 <= i < n ==> images[..n][i] == images[i];
        r
  }

  /** A counterexample: with a wide hero image listed before a narrower one, the pick as
      written is the narrower. */
  lemma HeroImageAsWrittenPicksNarrower()
    ensures var wide := Image(Hero, 1920, "wide", Null);
      var narrow := Image(Hero, 640, "narrow", Null);
      HeroImageAsWritten([wide, narrow]) == Some(narrow)
  {
    var wide := Image(Hero, 1920, "wide", Null);
    var narrow := Image(Hero, 640, "narrow", Null);
    assert [wide, narrow][..1] == [wide];
  }

  /** `GetHeroImage()` as intended, with `width` raised to each new pick's width: the first
      hero image of maximal width, when that width is positive. */
  function GetHeroImage(images: seq<Image>): (r: Nullable<Image>)
    ensures r.Null? <==> forall i :: 0 <= i < |images| ==> !(images[i].kind == Hero && images[i].width > 0)
    ensures r.Some? ==> r.value.kind == Hero && r.value.width > 0
    ensures r.Some? ==> forall i :: 0 <= i < |images| && images[i].kind == Hero ==> images[i].width <= r.value.width
    ensures r.Some? ==> exists i :: (
      && 0 <= i < |images| && images[i] == r.value
      && forall j :: 0 <= j < i && images[j].kind == Hero ==> images[j].width < r.value.width)
  {
    if |images| == 0 then Null
    else
      var n := |images| - 1;
      var best := GetHeroImage(images[..n]);
      assert forall i :: 0 <= i < n ==> images[..n][i] == images[i];
      var width := if best.Some? then best.value.width else 0;
      if images[n].kind == Hero && images[n].width > width then Some(images[n]) else best
  }

  /** `"Windows.".Length`, the prefix cut from the device family name. */
  const WindowsPrefixLength: nat := 8

  /** A screenshot for device family `family`: a non-empty position string starting with it. */
  predicate IsFamilyScreenshot(img: Image, family: string) {
    img.kind == Screenshot && img.position.Some? && |img.position.value| > 0
    && StartsWith(img.position.value, family)
  }

  /** The screenshots for `family`, in listing order. */
  function FamilyScreenshots(images: seq<Image>, family: string): (r: seq<Image>)
    ensures forall x :: x in r <==> x in images && IsFamilyScreenshot(x, family)
    ensures |r| <= |images|
  {
    if |images| == 0 then []
    else
      var rest := FamilyScreenshots(images[1..], family);
      assert forall x :: x in images <==> x == images[0] || x in images[1..];
      if IsFamilyScreenshot(images[0], family) then [images[0]] + rest else rest
  }

  /** The `Where` over the images keeps the listing order: filtering a concatenation filters
      each part, and a single image is kept exactly when it is a screenshot for the family. */
  lemma {:induction false} FamilyScreenshotsKeepOrder(a: seq<Image>, b: seq<Image>, family: string)
    ensures FamilyScreenshots(a + b, family) == FamilyScreenshots(a, family) + FamilyScreenshots(b, family)
    ensures forall x :: FamilyScreenshots([x], family) == if IsFamilyScreenshot(x, family) then [x] else []
    decreases |a|
  {
    forall x ensures FamilyScreenshots([x], family) == if IsFamilyScreenshot(x, family) then [x] else [] {
      assert [x][1..] == [];
    }
    if |a| > 0 {
      assert (a + b)[0] == a[0];
      assert (a + b)[1..] == a[1..] + b;
      FamilyScreenshotsKeepOrder(a[1..], b, family);
    } else {
      assert a + b == b;
    }
  }

  /** The index a screenshot asks for: the text after the family name and one more
      character (the '/'), read by `int.Parse`. */
  function PositionIndex(img: Image, family: string): (r: Result<int, Exception>)
    ensures img.position.Null? ==> r == Err(NullReferenceException)
    ensures img.position.Some? && |img.position.value| < |family| + 1 ==> r == Err(ArgumentOutOfRangeException)
    ensures img.position.Some? && |img.position.value| >= |family| + 1 ==> r == ParseInt32(img.position.value[|family| + 1..])
    ensures r.Ok? ==> -0x8000_0000 <= r.value <= 0x7FFF_FFFF
    ensures r.Err? ==> r.error in {NullReferenceException, ArgumentOutOfRangeException, FormatException, OverflowException}
  {
    var pos := img.position.OrElse("");
    if img.position.Null? then Err(NullReferenceException)
    else if |pos| < |family| + 1 then Err(ArgumentOutOfRangeException)
    else ParseInt32(pos[|family| + 1..])
  }

  /** The position "<family>" + separator + the text of a 32-bit integer asks for that
      integer. */
  lemma PositionIndexReadsBack(img: Image, family: string, separator: char, n: int)
    requires -0x8000_0000 <= n <= 0x7FFF_FFFF
    requires img.position == Some(family + [separator] + IntToString(n))
    ensures PositionIndex(img, family) == Ok(n)
  {
    var pos := family + [separator] + IntToString(n);
    assert pos[|family| + 1..] == "" + IntToString(n) + "";
    ParseInt32IntToString(n, "", "");
  }

  /** Appending when the index is at or past the end, else `List.Insert`, which rejects a
      negative index. */
  function Place(sorted: seq<Image>, index: int, img: Image): (r: Result<seq<Image>, Exception>)
    ensures r.Err? <==> index < 0
    ensures r.Ok? ==> |r.value| == |sorted| + 1 && multiset(r.value) == multiset(sorted) + multiset{img}
    ensures r.Ok? ==> r.value[if index >= |sorted| then |sorted| else index] == img
    ensures index >= |sorted| ==> r == Ok(sorted + [img])
    ensures 0 <= index < |sorted| ==> r == Ok(sorted[..index] + [img] + sorted[index..])
  {
    if index >= |sorted| then Ok(sorted + [img])
    else if index < 0 then Err(ArgumentOutOfRangeException)
    else
      assert sorted == sorted[..index] + sorted[index..];
      Ok(sorted[..index] + [img] + sorted[index..])
  }

  /** The loop of `GetScreenshots` from list `sorted`, over the screenshots `rest` still to
      place. */
  function Arrange(sorted: seq<Image>, rest: seq<Image>, family: string): (r: Result<seq<Image>, Exception>)
    ensures r.Ok? ==> |r.value| == |sorted| + |rest|
    ensures r.Ok? ==> multiset(r.value) == multiset(sorted) + multiset(rest)
    ensures r.Err? <==> exists x :: x in rest && BadPosition(x, family)
    ensures |rest| == 0 ==> r == Ok(sorted)
    decreases |rest|
  {
    if |rest| == 0 then Ok(sorted)
    else
      assert rest[0] in rest;
      match PositionIndex(rest[0], family)
      case Err(e) => Err(e)
      case Ok(index) =>
        match Place(sorted, index, rest[0])
        case Err(e) => assert BadPosition(rest[0], family); Err(e)
        case Ok(placed) =>
          assert rest == [rest[0]] + rest[1..];
          assert forall x :: x in rest <==> x == rest[0] || x in rest[1..];
          Arrange(placed, rest[1..], family)
  }

  /** A screenshot the loop throws on: its index does not parse or is negative. */
  predicate BadPosition(img: Image, family: string) {
    PositionIndex(img, family).Err? || PositionIndex(img, family).value < 0
  }

  /** `GetScreenshots()` for the device family name `deviceFamily` (such as
      "Windows.Desktop"). */
  function GetScreenshots(images: seq<Image>, deviceFamily: string): (r: Result<seq<Image>, Exception>)
    ensures |deviceFamily| < WindowsPrefixLength ==> r == Err(ArgumentOutOfRangeException)
    ensures r.Ok? ==> var shots := FamilyScreenshots(images, deviceFamily[WindowsPrefixLength..]);
      |r.value| == |shots| && multiset(r.value) == multiset(shots)
    ensures r.Ok? ==> forall x :: x in r.value ==> x in images && x.kind == Screenshot
    ensures |deviceFamily| >= WindowsPrefixLength ==> var family := deviceFamily[WindowsPrefixLength..];
      (r.Err? <==> exists x :: x in FamilyScreenshots(images, family) && BadPosition(x, family))
  {
    if |deviceFamily| < WindowsPrefixLength then Err(ArgumentOutOfRangeException)
    else
      var family := deviceFamily[WindowsPrefixLength..];
      var shots := FamilyScreenshots(images, family);
      var r := Arrange([], shots, family);
      assert r.Ok? ==> forall x :: x in r.value ==> x in shots by {
        if r.Ok? {
          forall x | x in r.value ensures x in shots {
            assert x in multiset(r.value);
          }
        }
      }
      r
  }

  /** Screenshots whose indices never fall inside the list built so far are appended, so
      they keep their listing order. */
  lemma {:induction false} ArrangeAppendsInOrder(sorted: seq<Image>, rest: seq<Image>, family: string)
    requires forall i :: 0 <= i < |rest| ==> AppendsAt(rest[i], family, |sorted| + i)
    ensures Arrange(sorted, rest, family) == Ok(sorted + rest)
    decreases |rest|
  {
    if |rest| > 0 {
      var placed := sorted + [rest[0]];
      var tail := rest[1..];
      calc {
        Arrange(sorted, rest, family);
        == { ArrangeAppendsOne(sorted, rest, family); }
        Arrange(placed, tail, family);
        == { ShiftAppendsAt(sorted, rest, family);
             ArrangeAppendsInOrder(placed, tail, family); }
        Ok(placed + tail);
        == { assert placed + tail == sorted + rest; }
        Ok(sorted + rest);
      }
    } else {
      assert sorted + rest == sorted;
    }
  }

  /** The index condition for the screenshots after the first, one place further on. */
  lemma ShiftAppendsAt(sorted: seq<Image>, rest: seq<Image>, family: string)
    requires |rest| > 0
    requires forall i :: 0 <= i < |rest| ==> AppendsAt(rest[i], family, |sorted| + i)
    ensures forall i :: 0 <= i < |rest| - 1 ==> AppendsAt(rest[1..][i], family, |sorted| + 1 + i)
  {
    forall i | 0 <= i < |rest| - 1 ensures AppendsAt(rest[1..][i], family, |sorted| + 1 + i) {
      assert rest[1..][i] == rest[i + 1];
      assert AppendsAt(rest[i + 1], family, |sorted| + (i + 1));
    }
  }

  /** One step of the loop when the first screenshot's index is past the end. */
  lemma ArrangeAppendsOne(sorted: seq<Image>, rest: seq<Image>, family: string)
    requires |rest| > 0
    requires AppendsAt(rest[0], family, |sorted|)
    ensures Arrange(sorted, rest, family) == Arrange(sorted + [rest[0]], rest[1..], family)
  {
    var index := PositionIndex(rest[0], family).value;
    assert Place(sorted, index, rest[0]) == Ok(sorted + [rest[0]]);
  }

  /** The screenshot's index parses and is at least `length`. */
  predicate AppendsAt(img: Image, family: string, length: int) {
    PositionIndex(img, family).Ok? && PositionIndex(img, family).value >= length
  }

  /** Positions "<family>/0", "<family>/1", ... in listing order give the screenshots in
      listing order. A .NET list holds fewer than 2^31 elements, so every such index
      parses. */
  lemma ScreenshotsInListingOrder(images: seq<Image>, deviceFamily: string)
    requires |images| <= 0x7FFF_FFFF
    requires |deviceFamily| >= WindowsPrefixLength
    requires var shots := FamilyScreenshots(images, deviceFamily[WindowsPrefixLength..]);
      forall i :: 0 <= i < |shots| ==> shots[i].position == Some(deviceFamily[WindowsPrefixLength..] + "/" + NatToString(i))
    ensures GetScreenshots(images, deviceFamily) == Ok(FamilyScreenshots(images, deviceFamily[WindowsPrefixLength..]))
  {
    var family := deviceFamily[WindowsPrefixLength..];
    var shots := FamilyScreenshots(images, family);
    forall i | 0 <= i < |shots|
      ensures AppendsAt(shots[i], family, i)
    {
      assert IntToString(i) == NatToString(i);
      PositionIndexReadsBack(shots[i], family, '/', i);
    }
    ArrangeAppendsInOrder([], shots, family);
    assert [] + shots == shots;
  }

  /** Two screenshots listed at positions 1 then 0: the second is inserted in front of the
      first, so they come out in position order. */
  lemma ScreenshotsSwapped(a: Image, b: Image, family: string)
    requires a.kind == Screenshot && a.position == Some(family + "/1")
    requires b.kind == Screenshot && b.position == Some(family + "/0")
    ensures GetScreenshots([a, b], "Windows." + family) == Ok([b, a])
  {
    ListedAt(a, family, 1);
    ListedAt(b, family, 0);
    ListedScreenshots([a, b], family);
    ArrangeOneZero(a, b, family);
  }

  /** The loop on indices 1, 0: append, then insert at the front. */
  lemma ArrangeOneZero(a: Image, b: Image, family: string)
    requires PositionIndex(a, family) == Ok(1)
    requires PositionIndex(b, family) == Ok(0)
    ensures Arrange([], [a, b], family) == Ok([b, a])
  {
    assert [a, b][1..] == [b];
    assert Place([], 1, a).value == [a];
    PlaceFront([a], b);
    assert [b] + [a] == [b, a];
    calc {
      Arrange([], [a, b], family);
      { ArrangeStep([], [a, b], family, 1); }
      Arrange([a], [b], family);
      { ArrangeStep([a], [b], family, 0); }
      Arrange([b, a], [], family);
    }
  }

  /** As written, the list called `sorted` is not sorted: screenshots listed at positions 2,
      1, 0 come out at positions 0, 2, 1, because position 1 is appended to a list of one. */
  lemma ScreenshotsOutOfPositionOrder(a: Image, b: Image, c: Image, family: string)
    requires a.kind == Screenshot && a.position == Some(family + "/2")
    requires b.kind == Screenshot && b.position == Some(family + "/1")
    requires c.kind == Screenshot && c.position == Some(family + "/0")
    ensures GetScreenshots([a, b, c], "Windows." + family) == Ok([c, a, b])
    ensures !ByPosition([c, a, b], family)
  {
    ListedAt(a, family, 2);
    ListedAt(b, family, 1);
    ListedAt(c, family, 0);
    ListedScreenshots([a, b, c], family);
    ArrangeTwoOneZero(a, b, c, family);
    assert Position([c, a, b][1], family) > Position([c, a, b][2], family);
  }

  /** The loop on indices 2, 1, 0: append, append, insert at the front. */
  lemma ArrangeTwoOneZero(a: Image, b: Image, c: Image, family: string)
    requires PositionIndex(a, family) == Ok(2)
    requires PositionIndex(b, family) == Ok(1)
    requires PositionIndex(c, family) == Ok(0)
    ensures Arrange([], [a, b, c], family) == Ok([c, a, b])
  {
    ArrangeAppendsTwo(a, b, c, family);
    PlaceFront([a, b], c);
    assert [c] + [a, b] == [c, a, b];
    ArrangeStep([a, b], [c], family, 0);
  }

  /** The first two turns of the loop on indices 2, 1: both are appended. */
  lemma ArrangeAppendsTwo(a: Image, b: Image, c: Image, family: string)
    requires PositionIndex(a, family) == Ok(2)
    requires PositionIndex(b, family) == Ok(1)
    ensures Arrange([], [a, b, c], family) == Arrange([a, b], [c], family)
  {
    assert [a, b, c][1..] == [b, c] && [b, c][1..] == [c];
    assert Place([], 2, a).value == [a];
    assert Place([a], 1, b).value == [a, b];
    ArrangeStep([], [a, b, c], family, 2);
    ArrangeStep([a], [b, c], family, 1);
  }

  /** Index 0 puts the screenshot in front. */
  lemma PlaceFront(sorted: seq<Image>, img: Image)
    ensures Place(sorted, 0, img) == Ok([img] + sorted)
  {
    if |sorted| > 0 {
      assert sorted[..0] == [] && sorted[0..] == sorted;
      assert [] + [img] + sorted == [img] + sorted;
    } else {
      assert sorted + [img] == [img] + sorted;
    }
  }

  /** One turn of the loop on a screenshot whose index `n` parses and is not negative: the
      screenshot is placed by `Place` and the loop goes on with the rest. */
  lemma ArrangeStep(sorted: seq<Image>, rest: seq<Image>, family: string, n: int)
    requires |rest| > 0 && PositionIndex(rest[0], family) == Ok(n) && n >= 0
    ensures Place(sorted, n, rest[0]).Ok?
    ensures Arrange(sorted, rest, family) == Arrange(Place(sorted, n, rest[0]).value, rest[1..], family)
  {
  }

  /** When every image is a screenshot for the family, `GetScreenshots` arranges all of them. */
  lemma ListedScreenshots(images: seq<Image>, family: string)
    requires forall i :: 0 <= i < |images| ==> IsFamilyScreenshot(images[i], family)
    ensures GetScreenshots(images, "Windows." + family) == Arrange([], images, family)
  {
    var deviceFamily := "Windows." + family;
    assert deviceFamily[WindowsPrefixLength..] == family;
    AllFamilyScreenshots(images, family);
  }

  /** The `Where` keeps every image when each one is a screenshot for the family. */
  lemma {:induction false} AllFamilyScreenshots(images: seq<Image>, family: string)
    requires forall i :: 0 <= i < |images| ==> IsFamilyScreenshot(images[i], family)
    ensures FamilyScreenshots(images, family) == images
    decreases |images|
  {
    if |images| > 0 {
      assert forall i :: 0 <= i < |images[1..]| ==> images[1..][i] == images[i + 1];
      AllFamilyScreenshots(images[1..], family);
      assert images == [images[0]] + images[1..];
    }
  }

  /** A screenshot whose position is the family, '/' and the digit `n`. */
  lemma ListedAt(img: Image, family: string, n: nat)
    requires n <= 2 && img.kind == Screenshot && img.position == Some(family + Slash(n))
    ensures IsFamilyScreenshot(img, family)
    ensures PositionIndex(img, family) == Ok(n)
    ensures Position(img, family) == n
  {
    assert IntToString(n) == NatToString(n);
    assert family + Slash(n) == family + ['/'] + IntToString(n);
    PositionIndexReadsBack(img, family, '/', n);
    assert img.position.value[..|family|] == family;
  }

  /** '/' and the digit 0, 1 or 2. */
  function Slash(n: nat): (s: string)
    requires n <= 2
    ensures s == ['/'] + NatToString(n)
  {
    if n == 0 then "/0" else if n == 1 then "/1" else "/2"
  }

  /** The position a screenshot asks for, 0 when it has none that parses. */
  function Position(img: Image, family: string): int {
    if PositionIndex(img, family).Ok? then PositionIndex(img, family).value else 0
  }

  /** The screenshots are in position order. */
  predicate ByPosition(s: seq<Image>, family: string) {
    forall i :: 0 < i < |s| ==> Position(s[i - 1], family) <= Position(s[i], family)
  }

  /** `img` placed after every screenshot whose position is not greater than its own, so
      screenshots asking for the same position keep their listing order. */
  function InsertByPosition(sorted: seq<Image>, img: Image, family: string): (r: seq<Image>)
    requires ByPosition(sorted, family)
    ensures ByPosition(r, family)
    ensures multiset(r) == multiset(sorted) + multiset{img}
    ensures |r| == |sorted| + 1
    ensures r[0] == img || (|sorted| > 0 && r[0] == sorted[0])
    decreases |sorted|
  {
    if |sorted| == 0 then [img]
    else if Position(img, family) < Position(sorted[0], family) then [img] + sorted
    else
      var tail := sorted[1..];
      assert ByPosition(tail, family) by {
        forall i | 0 < i < |tail| ensures Position(tail[i - 1], family) <= Position(tail[i], family) {
          assert tail[i - 1] == sorted[i] && tail[i] == sorted[i + 1];
        }
      }
      var rest := InsertByPosition(tail, img, family);
      assert sorted == [sorted[0]] + tail;
      var r := [sorted[0]] + rest;
      assert ByPosition(r, family) by {
        forall i | 0 < i < |r| ensures Position(r[i - 1], family) <= Position(r[i], family) {
          if i > 1 {
            assert r[i - 1] == rest[i - 2] && r[i] == rest[i - 1];
          } else if rest[0] != img {
            assert rest[0] == sorted[1];
          }
        }
      }
      r
  }

  /** The loop of `GetScreenshots` with each screenshot inserted by position: it fails on
      the same screenshots as the loop as written. */
  function ArrangeByPosition(sorted: seq<Image>, rest: seq<Image>, family: string): (r: Result<seq<Image>, Exception>)
    requires ByPosition(sorted, family)
    ensures r.Ok? ==> ByPosition(r.value, family)
    ensures r.Ok? ==> multiset(r.value) == multiset(sorted) + multiset(rest)
    ensures r.Err? <==> exists x :: x in rest && BadPosition(x, family)
    decreases |rest|
  {
    if |rest| == 0 then Ok(sorted)
    else
      assert rest[0] in rest;
      match PositionIndex(rest[0], family)
      case Err(e) => Err(e)
      case Ok(index) =>
        if index < 0 then Err(ArgumentOutOfRangeException)
        else
          assert rest == [rest[0]] + rest[1..];
          assert forall x :: x in rest <==> x == rest[0] || x in rest[1..];
          ArrangeByPosition(InsertByPosition(sorted, rest[0], family), rest[1..], family)
  }

  /** `GetScreenshots()` as its list name promises: the family's screenshots in position
      order, failing exactly when the method as written fails. */
  function GetScreenshotsByPosition(images: seq<Image>, deviceFamily: string): (r: Result<seq<Image>, Exception>)
    ensures r.Err? <==> GetScreenshots(images, deviceFamily).Err?
    ensures r.Ok? ==> ByPosition(r.value, deviceFamily[WindowsPrefixLength..])
    ensures r.Ok? ==> multiset(r.value) == multiset(FamilyScreenshots(images, deviceFamily[WindowsPrefixLength..]))
  {
    if |deviceFamily| < WindowsPrefixLength then Err(ArgumentOutOfRangeException)
    else
      var family := deviceFamily[WindowsPrefixLength..];
      assert multiset(FamilyScreenshots(images, family)) == multiset([]) + multiset(FamilyScreenshots(images, family));
      ArrangeByPosition([], FamilyScreenshots(images, family), family)
  }

  /** Inserted by position, the screenshots listed at positions 2, 1, 0 come out at
      positions 0, 1, 2. */
  lemma ScreenshotsByPositionSorted(a: Image, b: Image, c: Image, family: string)
    requires a.kind == Screenshot && a.position == Some(family + "/2")
    requires b.kind == Screenshot && b.position == Some(family + "/1")
    requires c.kind == Screenshot && c.position == Some(family + "/0")
    ensures GetScreenshotsByPosition([a, b, c], "Windows." + family) == Ok([c, b, a])
  {
    var deviceFamily := "Windows." + family;
    assert deviceFamily[WindowsPrefixLength..] == family;
    ListedAt(a, family, 2);
    ListedAt(b, family, 1);
    ListedAt(c, family, 0);
    AllFamilyScreenshots([a, b, c], family);
    ArrangeByPositionTwoOneZero(a, b, c, family);
  }

  /** The corrected loop on indices 2, 1, 0: each one goes in front. */
  lemma ArrangeByPositionTwoOneZero(a: Image, b: Image, c: Image, family: string)
    requires PositionIndex(a, family) == Ok(2)
    requires PositionIndex(b, family) == Ok(1)
    requires PositionIndex(c, family) == Ok(0)
    ensures ArrangeByPosition([], [a, b, c], family) == Ok([c, b, a])
  {
    assert [a, b, c][1..] == [b, c] && [b, c][1..] == [c];
    assert InsertByPosition([], a, family) == [a];
    assert InsertByPosition([a], b, family) == [b, a];
    assert InsertByPosition([b, a], c, family) == [c, b, a];
    calc {
      ArrangeByPosition([], [a, b, c], family);
      ArrangeByPosition([a], [b, c], family);
      ArrangeByPosition([b, a], [c], family);
      ArrangeByPosition([c, b, a], [], family);
    }
  }
}

=== FILE: microsoft_store_package.dfy ===
/** `MicrosoftStorePackage`: a store listing as a package record, its compatibility gate,
    and the fetch-and-download flow. The catalogue query, the background downloader and the
    file system are replaced by the answers they give. */
module MicrosoftStorePackage {
  import opened Prelude
  import opened Strings
  import opened Versions
  import opened Windows
  import opened Messages
  import opened PackageBase

  /** The namespace of store URNs ("urn:msstore:<product id>"). */
  const MsStoreNamespace: string := "msstore"

  /** The part of a store product listing that `Update(ProductDetails)` reads. */
  datatype ProductDetails = ProductDetails(
    title: Nullable<string>,
    publisherId: Nullable<string>,
    publisherName: Nullable<string>,
    description: Nullable<string>,
    version: Nullable<string>,
    price: real,
    displayPrice: Nullable<string>,
    shortTitle: Nullable<string>,
    appWebsiteUrl: Nullable<string>,
    productId: Nullable<string>,
    packageFamilyNames: Nullable<seq<string>>,
    notes: Nullable<seq<string>>,
    features: Nullable<seq<string>>,
    categories: Nullable<seq<string>>,
    privacyUrl: Nullable<string>,
    platforms: Nullable<seq<string>>,
    supportUris: Nullable<seq<string>>,
    permissionsRequested: Nullable<seq<string>>,
    allowedPlatforms: Nullable<seq<PlatWindows>>,
    images: Nullable<seq<Image>>)

  /** The state of one `MicrosoftStorePackage`: the shared record plus the store fields. */
  datatype StorePackage = StorePackage(
    base: Record,
    storeId: Nullable<string>,
    packageId: Nullable<string>,
    packageFamilyName: Nullable<string>,
    publisherDisplayName: Nullable<string>,
    notes: Nullable<seq<string>>,
    features: Nullable<seq<string>>,
    categories: Nullable<seq<string>>,
    privacyUrl: Nullable<string>,
    platforms: Nullable<seq<string>>,
    supportUrls: seq<string>,
    permissionsRequested: Nullable<seq<string>>,
    allowedPlatforms: Nullable<seq<PlatWindows>>,
    packageMoniker: Nullable<string>,
    packageUri: Nullable<string>,
    installerFile: Nullable<string>)

  /** A package before its first `Update`: every field at its initializer. */
  function EmptyPackage(): StorePackage {
    StorePackage(NewRecord(), Null, Null, Null, Null, Some([]), Some([]), Some([]), Null, Some([]), [],
                 Some([]), Some([]), Null, Null, Null)
  }

  /** `Update(ProductDetails)`. `product.PackageFamilyNames?[0]` throws on a present but
      empty list; otherwise the package id is the first family name, or the store id for an
      unpackaged app. Support URLs and images are appended to what the package already has;
      the URN and the status are left alone. */
  function Update(p: StorePackage, product: ProductDetails): (r: Result<StorePackage, Exception>)
    ensures r.Err? <==> product.packageFamilyNames == Some([])
    ensures r.Err? ==> r.error == ArgumentOutOfRangeException
    ensures r.Ok? ==> var q := r.value;
      && q.storeId == product.productId
      && (product.packageFamilyNames.Some? ==>
            q.packageId == Some(product.packageFamilyNames.value[0]) && q.packageFamilyName == q.packageId)
      && (product.packageFamilyNames.Null? ==> q.packageId == product.productId && q.packageFamilyName.Null?)
      && q.base.title == product.title && q.base.publisherId == product.publisherId
      && q.base.developerName == product.publisherName && q.publisherDisplayName == product.publisherName
      && q.base.description == product.description && q.base.version == product.version
      && q.base.price == product.price && q.base.displayPrice == product.displayPrice
      && q.base.shortTitleField == product.shortTitle && q.base.website == product.appWebsiteUrl
      && q.notes == product.notes && q.features == product.features && q.categories == product.categories
      && q.privacyUrl == product.privacyUrl && q.platforms == product.platforms
      && q.permissionsRequested == product.permissionsRequested
      && q.allowedPlatforms == product.allowedPlatforms
      && q.base.images == p.base.images + product.images.OrElse([])
      && q.supportUrls == p.supportUrls + product.supportUris.OrElse([])
      && q.base.urn == p.base.urn && q.base.status == p.base.status
      && q.base.downloadItem == p.base.downloadItem
      && q.packageMoniker == p.packageMoniker && q.packageUri == p.packageUri
      && q.installerFile == p.installerFile
  {
    var names := product.packageFamilyNames;
    if names == Some([]) then Err(ArgumentOutOfRangeException)
    else
      var familyName := if names.Some? then Some(names.value[0]) else Null;
      var base := p.base.(
        title := product.title,
        publisherId := product.publisherId,
        developerName := product.publisherName,
        description := product.description,
        version := product.version,
        price := product.price,
        displayPrice := product.displayPrice,
        shortTitleField := product.shortTitle,
        website := product.appWebsiteUrl,
        images := p.base.images + product.images.OrElse([]));
      Ok(p.(
        base := base,
        storeId := product.productId,
        packageFamilyName := familyName,
        publisherDisplayName := product.publisherName,
        packageId := if familyName.Some? then familyName else product.productId,
        notes := product.notes,
        features := product.features,
        categories := product.categories,
        privacyUrl := product.privacyUrl,
        platforms := product.platforms,
        supportUrls := p.supportUrls + product.supportUris.OrElse([]),
        permissionsRequested := product.permissionsRequested,
        allowedPlatforms := product.allowedPlatforms))
  }

  /** Updating twice from the same listing lists its images and support URLs twice. */
  lemma UpdateTwiceDuplicates(p: StorePackage, product: ProductDetails)
    requires product.packageFamilyNames != Some([])
    ensures Update(p, product).Ok?
    ensures var q := Update(Update(p, product).value, product);
      && q.Ok?
      && q.value.base.images == p.base.images + product.images.OrElse([]) + product.images.OrElse([])
      && |q.value.supportUrls| == |p.supportUrls| + 2 * |product.supportUris.OrElse([])|
  {
  }

  /** The result of reading the lazily cached `Urn` property: the URN and the package with
      its cache filled. */
  datatype UrnRead = UrnRead(urn: Urn, package: StorePackage)

  /** The `Urn` getter: on first read it builds "urn:msstore:" + StoreId and caches it;
      later reads return the cache. */
  function GetUrn(p: StorePackage): (r: UrnRead)
    ensures r.package.base.urn == Some(r.urn)
    ensures p.base.urn.Some? ==> r == UrnRead(p.base.urn.value, p)
    ensures p.base.urn.Null? ==>
      r.urn == Urn(MsStoreNamespace, p.storeId.OrElse("")) && r.package == p.(base := p.base.(urn := Some(r.urn)))
  {
    if p.base.urn.Some? then UrnRead(p.base.urn.value, p)
    else
      var u := Urn(MsStoreNamespace, p.storeId.OrElse(""));
      UrnRead(u, p.(base := p.base.(urn := Some(u))))
  }

  /** Reading the URN twice gives the same URN and the second read changes nothing; once
      read, the URN survives an `Update` that changes the store id. */
  lemma UrnIsCachedOnce(p: StorePackage, product: ProductDetails)
    requires product.packageFamilyNames != Some([])
    ensures var first := GetUrn(p); GetUrn(first.package) == first
    ensures var first := GetUrn(p);
      Update(first.package, product).Ok? && GetUrn(Update(first.package, product).value).urn == first.urn
  {
  }

  /** The answer of `Equals(PackageBase other)` and both packages after it. */
  datatype EqualsRead = EqualsRead(result: bool, receiver: StorePackage, other: StorePackage)

  /** `Equals(PackageBase other)` between two store packages. `this.Urn.Equals(other.Urn)`
      reads both URNs through the getter, the receiver's first, so either read may build and
      cache its URN; it never meets a null URN. Afterwards the record-level equality of the
      two records agrees with the answer. */
  function StoreEquals(a: StorePackage, b: StorePackage): (r: EqualsRead)
    ensures r.receiver == GetUrn(a).package && r.other == GetUrn(b).package
    ensures r.result <==> GetUrn(a).urn == GetUrn(b).urn
    ensures Equals(r.receiver.base, r.other.base) == Ok(r.result)
    ensures a.base.urn.Null? && b.base.urn.Null? ==> (r.result <==> a.storeId.OrElse("") == b.storeId.OrElse(""))
  {
    var x := GetUrn(a);
    var y := GetUrn(b);
    EqualsRead(x.urn == y.urn, x.package, y.package)
  }

  /** Two packages built from listings, whose URNs were never read, compare by product id;
      reading the stored URN field instead would throw. */
  lemma FreshPackagesCompareByProductId(first: ProductDetails, second: ProductDetails)
    requires first.packageFamilyNames != Some([]) && second.packageFamilyNames != Some([])
    ensures Update(EmptyPackage(), first).Ok? && Update(EmptyPackage(), second).Ok?
    ensures var a := Update(EmptyPackage(), first).value;
      var b := Update(EmptyPackage(), second).value;
      && Equals(a.base, b.base) == Err(NullReferenceException)
      && (StoreEquals(a, b).result <==> first.productId.OrElse("") == second.productId.OrElse(""))
  {
  }

  /** `GetCannotBeInstalledReason()`: a task completing with the reason. The architecture is
      not checked. */
  function GetCannotBeInstalledReason(p: StorePackage, currentPlatform: Nullable<PlatWindows>): (t: ReasonTask)
    ensures t.Task?
    ensures currentPlatform.Null? ==> t.reason == Some("Cannot identify the current Windows platform.")
    ensures currentPlatform.Some? ==>
      (t.reason.Null? <==> p.allowedPlatforms.Null? || currentPlatform.value in p.allowedPlatforms.value)
    ensures currentPlatform.Some? && t.reason.Some? ==>
      t.reason.value == p.base.title.OrElse("") + " does not support " + PlatformName(currentPlatform.value)
  {
    if currentPlatform.Null? then Task(Some("Cannot identify the current Windows platform."))
    else if p.allowedPlatforms.Some? && currentPlatform.value !in p.allowedPlatforms.value then
      Task(Some(p.base.title.OrElse("") + " does not support " + PlatformName(currentPlatform.value)))
    else Task(Null)
  }

  /** With a known platform, an absent allow-list admits every platform and an empty one
      rejects every platform; the rejection names the title. */
  lemma PlatformGateLists(p: StorePackage, plat: PlatWindows, title: string)
    ensures GetCannotBeInstalledReason(p.(allowedPlatforms := Null), Some(plat)).reason.Null?
    ensures var q := p.(allowedPlatforms := Some([]), base := p.base.(title := Some(title)));
      var reason := GetCannotBeInstalledReason(q, Some(plat)).reason;
      reason.Some? && StartsWith(reason.value, title)
  {
    var q := p.(allowedPlatforms := Some([]), base := p.base.(title := Some(title)));
    var reason := GetCannotBeInstalledReason(q, Some(plat)).reason;
    assert reason.value[..|title|] == title;
  }

  /** As written, `CanBeInstalled()` is false for every store package, even one the gate
      admits; with the documented meaning it is true exactly when the gate gives no reason. */
  lemma StoreCanBeInstalled(p: StorePackage, currentPlatform: Nullable<PlatWindows>)
    ensures !CanBeInstalledAsWritten(GetCannotBeInstalledReason(p, currentPlatform))
    ensures CanBeInstalled(GetCannotBeInstalledReason(p, currentPlatform))
      <==> currentPlatform.Some? && (p.allowedPlatforms.Null? || currentPlatform.value in p.allowedPlatforms.value)
  {
  }

  /** One installable package the catalogue lists for a product. */
  datatype PackageInstance = PackageInstance(version: SysVersion, moniker: string, uri: string)

  /** `Update(PackageInstance)`: stores the version's text, which reads back as the version,
      the moniker and the URI, and changes nothing else. */
  function UpdateFromInstance(p: StorePackage, inst: PackageInstance): (r: StorePackage)
    ensures r.base.version == Some(ToString(inst.version))
    ensures r.packageMoniker == Some(inst.moniker) && r.packageUri == Some(inst.uri)
    ensures r.base.(version := p.base.version) == p.base
    ensures r.(base := p.base, packageMoniker := p.packageMoniker, packageUri := p.packageUri) == p
  {
    p.(base := p.base.(version := Some(ToString(inst.version))),
       packageMoniker := Some(inst.moniker),
       packageUri := Some(inst.uri))
  }

  /** The packages kept for installation: on a known platform other than Xbox, those whose
      version revision is 70 are dropped; the order is kept. */
  function Installables(packs: seq<PackageInstance>, currentPlatform: Nullable<PlatWindows>): (r: seq<PackageInstance>)
    ensures currentPlatform.Null? || currentPlatform == Some(Xbox) ==> r == packs
    ensures forall x :: x in r ==> x in packs
    ensures currentPlatform.Some? && currentPlatform != Some(Xbox) ==>
      forall x :: x in packs ==> (x in r <==> Revision(x.version) != 70)
    ensures currentPlatform.Some? && currentPlatform != Some(Xbox) ==> r == WithoutRevision70(packs)
  {
    if currentPlatform.Null? || currentPlatform == Some(Xbox) then packs
    else WithoutRevision70(packs)
  }

  /** The filter `Where(p => p.Version.Revision != 70)`: the packages whose version revision
      is not 70, in catalogue order; an absent revision reads as -1. */
  function WithoutRevision70(packs: seq<PackageInstance>): (r: seq<PackageInstance>)
    ensures forall x :: x in r <==> x in packs && Revision(x.version) != 70
  {
    if |packs| == 0 then []
    else
      var rest := WithoutRevision70(packs[1..]);
      assert forall x :: x in packs <==> x == packs[0] || x in packs[1..];
      if Revision(packs[0].version) == 70 then rest else [packs[0]] + rest
  }

  /** The version text `Update(PackageInstance)` stores reads back as the instance's version. */
  lemma UpdateFromInstanceVersionReadsBack(p: StorePackage, inst: PackageInstance)
    ensures var r := UpdateFromInstance(p, inst);
      r.base.version.Some? && Parse(r.base.version.value) == Some(inst.version)
  {
    ParseToString(inst.version);
  }

  /** `Where` keeps the catalogue's order and duplicates: filtering a concatenation filters
      each part, and a single package is kept exactly when its revision is not 70. */
  lemma {:induction false} WithoutRevision70KeepsOrder(a: seq<PackageInstance>, b: seq<PackageInstance>)
    ensures WithoutRevision70(a + b) == WithoutRevision70(a) + WithoutRevision70(b)
    ensures forall x :: WithoutRevision70([x]) == if Revision(x.version) == 70 then [] else [x]
    decreases |a|
  {
    forall x ensures WithoutRevision70([x]) == if Revision(x.version) == 70 then [] else [x] {
      assert [x][1..] == [];
    }
    if |a| > 0 {
      assert (a + b)[0] == a[0];
      assert (a + b)[1..] == a[1..] + b;
      WithoutRevision70KeepsOrder(a[1..], b);
    } else {
      assert a + b == b;
    }
  }

  /** The first package of maximal version: `OrderByDescending(p => p.Version).First()`,
      whose sort is stable. */
  function NewestIndex(packs: seq<PackageInstance>): (k: nat)
    requires |packs| > 0
    ensures k < |packs|
    ensures forall j :: 0 <= j < |packs| ==> !Less(packs[k].version, packs[j].version)
    ensures forall j :: 0 <= j < k ==> Less(packs[j].version, packs[k].version)
  {
    if |packs| == 1 then 0
    else
      var n := |packs| - 1;
      var k := NewestIndex(packs[..n]);
      assert forall j :: 0 <= j < n ==> packs[..n][j] == packs[j];
      if Less(packs[k].version, packs[n].version) then
        forall j | 0 <= j < n ensures Less(packs[j].version, packs[n].version) {
          LessIsStrictTotalOrder(packs[j].version, packs[k].version, packs[n].version);
        }
        forall j | 0 <= j <= n ensures !Less(packs[n].version, packs[j].version) {
          LessIsStrictTotalOrder(packs[n].version, packs[j].version, packs[n].version);
          if j < n {
            LessIsStrictTotalOrder(packs[j].version, packs[n].version, packs[j].version);
          }
        }
        n
      else
        forall j | 0 <= j <= n ensures !Less(packs[k].version, packs[j].version) {
        }
        k
  }

  /** What `PopulatePackageUri()` reports, and the package after it. */
  datatype Populated = Populated(ok: bool, package: StorePackage)

  /** `PopulatePackageUri()`, given the packages the catalogue lists for the store id. */
  function PopulatePackageUri(p: StorePackage, currentPlatform: Nullable<PlatWindows>,
                              packs: seq<PackageInstance>): (r: Populated)
    ensures !r.ok <==> |Installables(packs, currentPlatform)| == 0
    ensures !r.ok ==> r.package == p
    ensures r.ok ==> var c := Installables(packs, currentPlatform);
      var k := NewestIndex(c);
      r.package == UpdateFromInstance(p, c[k]).(base := UpdateFromInstance(p, c[k]).base.(status := DownloadReady))
    ensures r.ok ==> r.package.base.status == DownloadReady && r.package.packageUri.Some?
  {
    var c := Installables(packs, currentPlatform);
    if |c| < 1 then Populated(false, p)
    else
      var q := UpdateFromInstance(p, c[NewestIndex(c)]);
      Populated(true, q.(base := q.base.(status := DownloadReady)))
  }

  /** The two characters `Path.GetFileName` treats as directory separators on Windows. */
  predicate IsSeparator(c: char) {
    c == '\\' || c == '/'
  }

  /** No directory separator anywhere in `s`. */
  predicate NoSeparator(s: string) {
    forall i :: 0 <= i < |s| ==> !IsSeparator(s[i])
  }

  /** `s` ends `t`. */
  predicate IsSuffix(s: string, t: string) {
    |s| <= |t| && s == t[|t| - |s|..]
  }

  /** The file part of a Windows path: what follows the last '\\' or '/', scanning from the end. */
  function FileName(path: string): (name: string)
    ensures NoSeparator(name)
    ensures IsSuffix(name, path)
    ensures |name| < |path| ==> IsSeparator(path[|path| - |name| - 1])
    ensures NoSeparator(path) ==> name == path
  {
    if |path| == 0 then ""
    else
      var c := path[|path| - 1];
      if IsSeparator(c) then ""
      else
        var front := path[..|path| - 1];
        var rest := FileName(front);
        var start := |front| - |rest|;
        assert path == front + [c];
        assert path[start..] == front[start..] + [c];
        assert start > 0 ==> path[start - 1] == front[start - 1];
        assert NoSeparator(path) ==> rest == front by {
          if NoSeparator(path) {
            assert forall i :: 0 <= i < |front| ==> front[i] == path[i];
          }
        }
        assert NoSeparator(rest + [c]) by {
          assert forall i :: 0 <= i < |rest| ==> (rest + [c])[i] == rest[i];
        }
        rest + [c]
  }

  /** What the environment answers during a download: the running platform, the catalogue's
      packages for the product, the temporary folder, the progress reports of
      `RangesDownloaded` (bytes received, bytes to receive), the HTTP status code, and the
      extension `GetInstallerType()` gives for the downloaded file. */
  datatype DownloadEnv = DownloadEnv(
    currentPlatform: Nullable<PlatWindows>,
    packs: seq<PackageInstance>,
    tempFolder: string,
    progress: seq<(nat, nat)>,
    statusCode: nat,
    extension: string)

  /** A 32-bit status code in the success range [200, 300). */
  predicate IsSuccessCode(code: nat) {
    200 <= code < 300
  }

  /** The messages for the downloader's progress reports. */
  function ProgressMessages(progress: seq<(nat, nat)>): (ms: seq<Message>)
    ensures |ms| == |progress|
    ensures forall i :: 0 <= i < |ms| ==> ms[i] == DownloadProgress(progress[i].0, progress[i].1)
  {
    if |progress| == 0 then [] else [DownloadProgress(progress[0].0, progress[0].1)] + ProgressMessages(progress[1..])
  }

  const FetchFailure: string := "An unknown error occurred."

  function StatusCodeFailure(code: nat): string {
    "Status code " + NatToString(code) + " did not indicate success."
  }

  /** What `DownloadPackageAsync` sent, the package afterwards, and what it returned. */
  datatype DownloadOutcome = DownloadOutcome(events: seq<Message>, package: StorePackage, ok: bool)

  /** The transfer part of `DownloadPackageAsync`, once the package URI is known: the file
      `name` is created, DownloadStarted is sent, every progress report becomes a message,
      and the status code decides between DownloadFailed (status left as it was) and
      Downloaded with DownloadCompleted last, the file renamed to its name plus the
      extension exactly when the extension is non-empty. */
  function Transfer(q: StorePackage, name: string, env: DownloadEnv): (r: DownloadOutcome)
    requires env.statusCode < 0x1_0000_0000
    ensures |r.events| == 2 + |env.progress|
    ensures r.events[0] == DownloadStarted
    ensures r.events[1..|r.events| - 1] == ProgressMessages(env.progress)
    ensures r.ok <==> IsSuccessCode(env.statusCode)
    ensures !r.ok ==> r.events[|r.events| - 1] == DownloadFailed(StatusCodeFailure(env.statusCode))
                      && r.package == q.(installerFile := Some(name))
    ensures r.ok ==> r.events[|r.events| - 1] == DownloadCompleted(r.package.installerFile.OrElse(""))
                     && r.package.base == q.base.(status := Downloaded)
                     && r.package.installerFile == Some(if env.extension == "" then name else name + env.extension)
                     && r.package.(base := q.base, installerFile := q.installerFile) == q
  {
    var started := [DownloadStarted] + ProgressMessages(env.progress);
    if !IsSuccessCode(env.statusCode) then
      DownloadOutcome(started + [DownloadFailed(StatusCodeFailure(env.statusCode))], q.(installerFile := Some(name)), false)
    else
      var finalName := if env.extension != "" then name + env.extension else name;
      DownloadOutcome(started + [DownloadCompleted(finalName)],
                      q.(installerFile := Some(finalName), base := q.base.(status := Downloaded)), true)
  }

  /** The shape of every transfer trace: DownloadStarted, progress messages, and one
      terminal download message `last`. */
  lemma ProgressTraceShape(progress: seq<(nat, nat)>, last: Message)
    requires IsTerminal(last) && StepOf(last) == DownloadStep
    ensures var e := [DownloadStarted] + ProgressMessages(progress) + [last];
      && TerminalCount(e, DownloadStep) == 1
      && (forall i :: 0 < i < |e| - 1 ==> IsProgress(e[i]))
      && (forall i :: 0 <= i < |e| ==> StepOf(e[i]) == DownloadStep)
  {
    ProgressTraceCount(progress, last);
    ProgressTraceSteps(progress, last);
  }

  /** A progress trace holds exactly one terminal download message. */
  lemma ProgressTraceCount(progress: seq<(nat, nat)>, last: Message)
    requires IsTerminal(last) && StepOf(last) == DownloadStep
    ensures TerminalCount([DownloadStarted] + ProgressMessages(progress) + [last], DownloadStep) == 1
  {
    var ms := ProgressMessages(progress);
    ProgressEndsNothing(progress);
    assert TerminalCount([DownloadStarted], DownloadStep) == 0 by {
      assert [DownloadStarted][..0] == [];
    }
    assert TerminalCount([last], DownloadStep) == 1 by {
      assert [last][..0] == [];
    }
    TerminalCountAppend([DownloadStarted], ms, DownloadStep);
    TerminalCountAppend([DownloadStarted] + ms, [last], DownloadStep);
  }

  /** Every message of a progress trace belongs to the download step, and all but the first
      and the last are progress messages. */
  lemma ProgressTraceSteps(progress: seq<(nat, nat)>, last: Message)
    requires StepOf(last) == DownloadStep
    ensures var e := [DownloadStarted] + ProgressMessages(progress) + [last];
      && (forall i :: 0 < i < |e| - 1 ==> IsProgress(e[i]))
      && (forall i :: 0 <= i < |e| ==> StepOf(e[i]) == DownloadStep)
  {
    var ms := ProgressMessages(progress);
    var e := [DownloadStarted] + ms + [last];
    forall i | 0 <= i < |e| ensures StepOf(e[i]) == DownloadStep && (0 < i < |e| - 1 ==> IsProgress(e[i])) {
      if 0 < i < |e| - 1 {
        assert e[i] == ms[i - 1];
      }
    }
  }

  /** Progress messages are download-step messages and none of them ends the step. */
  lemma ProgressEndsNothing(progress: seq<(nat, nat)>)
    ensures TerminalCount(ProgressMessages(progress), DownloadStep) == 0
  {
    var ms := ProgressMessages(progress);
    assert forall i :: 0 <= i < |ms| ==> !Ends(ms[i], DownloadStep);
  }

  /** A transfer sends exactly one terminal download message, last, with only progress
      messages between it and DownloadStarted. */
  lemma TransferHasOneTerminal(q: StorePackage, name: string, env: DownloadEnv)
    requires env.statusCode < 0x1_0000_0000
    ensures var e := Transfer(q, name, env).events;
      && TerminalCount(e, DownloadStep) == 1
      && IsTerminal(e[|e| - 1]) && StepOf(e[|e| - 1]) == DownloadStep
      && (forall i :: 0 < i < |e| - 1 ==> IsProgress(e[i]))
      && (forall i :: 0 <= i < |e| ==> StepOf(e[i]) == DownloadStep)
  {
    var e := Transfer(q, name, env).events;
    var last := e[|e| - 1];
    assert e == [DownloadStarted] + ProgressMessages(env.progress) + [last];
    ProgressTraceShape(env.progress, last);
  }

  /** The path of the file the download is written to: the given path, or the moniker inside
      the temporary folder. */
  function InstallerPath(q: StorePackage, installerPath: Nullable<string>, env: DownloadEnv): (path: string)
    ensures installerPath.Some? ==> path == installerPath.value
    ensures installerPath.Null? ==> path == env.tempFolder + "\\" + q.packageMoniker.OrElse("")
    ensures installerPath.Null? && q.packageMoniker.Some? && NoSeparator(q.packageMoniker.value)
      ==> FileName(path) == q.packageMoniker.value
  {
    if installerPath.Some? then installerPath.value
    else
      var moniker := q.packageMoniker.OrElse("");
      var path := env.tempFolder + "\\" + moniker;
      if NoSeparator(moniker) then
        FileNameAfterSeparator(env.tempFolder, moniker);
        path
      else path
  }

  /** The file part of a folder, '\\' and a name without separators is that name. */
  lemma {:induction false} FileNameAfterSeparator(folder: string, name: string)
    requires NoSeparator(name)
    ensures FileName(folder + "\\" + name) == name
    decreases |name|
  {
    var path := folder + "\\" + name;
    if |name| == 0 {
      assert path[|path| - 1] == '\\';
    } else {
      var front := name[..|name| - 1];
      assert NoSeparator(front) by {
        assert forall i :: 0 <= i < |front| ==> front[i] == name[i];
      }
      assert path[..|path| - 1] == folder + "\\" + front;
      assert path[|path| - 1] == name[|name| - 1];
      FileNameAfterSeparator(folder, front);
      assert front + [name[|name| - 1]] == name;
    }
  }

  /** The transfer into the file named by `InstallerPath`: success means a success code and
      the status Downloaded. */
  function TransferTo(q: StorePackage, installerPath: Nullable<string>, env: DownloadEnv): (r: DownloadOutcome)
    requires env.statusCode < 0x1_0000_0000
    ensures |r.events| >= 1
    ensures r.ok <==> IsSuccessCode(env.statusCode)
    ensures r.ok ==> r.package.base.status == Downloaded
  {
    Transfer(q, FileName(InstallerPath(q, installerPath, env)), env)
  }

  /** `DownloadPackageAsync(installerPath)`: FetchStarted, then either FetchFailed when no
      package can be installed, or FetchCompleted and the transfer. */
  function DownloadPackageAsync(p: StorePackage, installerPath: Nullable<string>, env: DownloadEnv)
    : (r: DownloadOutcome)
    requires env.statusCode < 0x1_0000_0000
    ensures |r.events| >= 2 && r.events[0] == FetchStarted
    ensures r.events[1] == FetchCompleted <==> |Installables(env.packs, env.currentPlatform)| > 0
    ensures r.ok ==> IsSuccessCode(env.statusCode) && r.package.base.status == Downloaded
  {
    var populated := PopulatePackageUri(p, env.currentPlatform, env.packs);
    if !populated.ok then DownloadOutcome([FetchStarted, FetchFailed(FetchFailure)], p, false)
    else
      var t := TransferTo(populated.package, installerPath, env);
      var e := [FetchStarted, FetchCompleted] + t.events;
      assert e[0] == FetchStarted && e[1] == FetchCompleted;
      assert t.ok ==> IsSuccessCode(env.statusCode) && t.package.base.status == Downloaded;
      DownloadOutcome(e, t.package, t.ok)
  }

  /** When no package can be installed, the trace is exactly FetchStarted, FetchFailed, the
      method returns false and the package is unchanged. */
  lemma DownloadFetchFails(p: StorePackage, installerPath: Nullable<string>, env: DownloadEnv)
    requires env.statusCode < 0x1_0000_0000
    requires |Installables(env.packs, env.currentPlatform)| == 0
    ensures var r := DownloadPackageAsync(p, installerPath, env);
      && r == DownloadOutcome([FetchStarted, FetchFailed(FetchFailure)], p, false)
      && TerminalCount(r.events, FetchStep) == 1
      && TerminalCount(r.events, DownloadStep) == 0
  {
    var e := [FetchStarted, FetchFailed(FetchFailure)];
    assert e[..1] == [FetchStarted];
    assert [FetchStarted][..0] == [];
  }

  /** A successful fetch put in front of a transfer trace: the trace starts FetchStarted,
      FetchCompleted, DownloadStarted, has one terminal fetch message, and as many terminal
      download messages as the transfer. */
  lemma FetchThenTransfer(tail: seq<Message>)
    requires |tail| >= 1 && tail[0] == DownloadStarted
    requires forall i :: 0 <= i < |tail| ==> StepOf(tail[i]) == DownloadStep
    ensures var e := [FetchStarted, FetchCompleted] + tail;
      && e[..3] == [FetchStarted, FetchCompleted, DownloadStarted]
      && TerminalCount(e, FetchStep) == 1
      && TerminalCount(e, DownloadStep) == TerminalCount(tail, DownloadStep)
  {
    var front := [FetchStarted, FetchCompleted];
    assert forall i :: 0 <= i < |tail| ==> !Ends(tail[i], FetchStep);
    assert TerminalCount(tail, FetchStep) == 0;
    TerminalCountAppend(front, tail, FetchStep);
    TerminalCountAppend(front, tail, DownloadStep);
    assert front[..1] == [FetchStarted];
    assert [FetchStarted][..0] == [];
  }

  /** When some package can be installed, the trace starts FetchStarted, FetchCompleted,
      DownloadStarted and holds exactly one terminal fetch message. */
  lemma DownloadFetchSucceeds(p: StorePackage, installerPath: Nullable<string>, env: DownloadEnv)
    requires env.statusCode < 0x1_0000_0000
    requires |Installables(env.packs, env.currentPlatform)| > 0
    ensures var r := DownloadPackageAsync(p, installerPath, env);
      && r.events[..3] == [FetchStarted, FetchCompleted, DownloadStarted]
      && TerminalCount(r.events, FetchStep) == 1
  {
    var q := PopulatePackageUri(p, env.currentPlatform, env.packs).package;
    var name := FileName(InstallerPath(q, installerPath, env));
    var tail := Transfer(q, name, env).events;
    assert DownloadPackageAsync(p, installerPath, env).events == [FetchStarted, FetchCompleted] + tail;
    TransferHasOneTerminal(q, name, env);
    FetchThenTransfer(tail);
  }

  /** Once the fetch succeeded: the status becomes DownloadReady and then Downloaded exactly
      when the status code is a success, the last message is the one terminal download
      message, and the result is true exactly on success. */
  lemma DownloadPhase(p: StorePackage, installerPath: Nullable<string>, env: DownloadEnv)
    requires env.statusCode < 0x1_0000_0000
    requires |Installables(env.packs, env.currentPlatform)| > 0
    ensures var r := DownloadPackageAsync(p, installerPath, env);
      && |r.events| == 4 + |env.progress|
      && TerminalCount(r.events, DownloadStep) == 1
      && IsTerminal(r.events[|r.events| - 1])
      && (r.ok <==> IsSuccessCode(env.statusCode))
      && (r.ok ==> r.package.base.status == Downloaded && r.events[|r.events| - 1].DownloadCompleted?)
      && (!r.ok ==> r.package.base.status == DownloadReady && r.events[|r.events| - 1].DownloadFailed?)
  {
    var q := PopulatePackageUri(p, env.currentPlatform, env.packs).package;
    var name := FileName(InstallerPath(q, installerPath, env));
    var t := Transfer(q, name, env);
    assert DownloadPackageAsync(p, installerPath, env) == t.(events := [FetchStarted, FetchCompleted] + t.events);
    TransferHasOneTerminal(q, name, env);
    FetchThenTransfer(t.events);
  }

  /** Re-running a download on a package already Downloaded sets the status back to
      DownloadReady when the second transfer fails: the status is not monotonic. */
  lemma RedownloadMovesStatusBack(p: StorePackage, installerPath: Nullable<string>, env: DownloadEnv)
    requires env.statusCode < 0x1_0000_0000
    requires p.base.status == Downloaded
    requires |Installables(env.packs, env.currentPlatform)| > 0 && !IsSuccessCode(env.statusCode)
    ensures DownloadPackageAsync(p, installerPath, env).package.base.status == DownloadReady
    ensures StatusValue(DownloadPackageAsync(p, installerPath, env).package.base.status) < StatusValue(p.base.status)
  {
  }
}

=== FILE: numbers.dfy ===
/** `int.Parse` under `NumberStyles.Integer`: white space around the number, an optional
    leading sign, ASCII digits, 32-bit range. */
module Numbers {
  import opened Prelude
  import opened Strings

  /** White space as `NumberStyles.AllowLeadingWhite` and `AllowTrailingWhite` define it:
      U+0009 to U+000D and U+0020. */
  predicate IsNumberWhite(c: char) {
    c == ' ' || '\t' <= c <= '\r'
  }

  /** `s` without its leading number white space. */
  function TrimStart(s: string): string {
    if |s| > 0 && IsNumberWhite(s[0]) then TrimStart(s[1..]) else s
  }

  /** `s` without its trailing number white space. */
  function TrimEnd(s: string): string {
    if |s| > 0 && IsNumberWhite(s[|s| - 1]) then TrimEnd(s[..|s| - 1]) else s
  }

  /** The number text inside the white space `NumberStyles.Integer` allows around it. */
  function TrimNumber(s: string): string {
    TrimEnd(TrimStart(s))
  }

  /** The digits after an optional leading '+' or '-'. */
  function Unsigned(t: string): string {
    if |t| > 0 && (t[0] == '-' || t[0] == '+') then t[1..] else t
  }

  /** `int.Parse(s)`, whose style is `NumberStyles.Integer`: white space around the number,
      an optional leading sign, then ASCII digits. Any other text is a FormatException; a
      value outside 32 bits is an OverflowException. */
  function ParseInt32(s: string): (r: Result<int, Exception>)
    ensures r.Ok? ==> -0x8000_0000 <= r.value <= 0x7FFF_FFFF
    ensures r == Err(FormatException) <==> !IsDigits(Unsigned(TrimNumber(s)))
    ensures r.Err? ==> r.error == FormatException || r.error == OverflowException
    ensures var t := TrimNumber(s); IsDigits(t) ==>
      r == if DigitsValue(t) <= 0x7FFF_FFFF then Ok(DigitsValue(t)) else Err(OverflowException)
    ensures var t := TrimNumber(s); |t| > 0 && t[0] == '+' && IsDigits(t[1..]) ==>
      r == if DigitsValue(t[1..]) <= 0x7FFF_FFFF then Ok(DigitsValue(t[1..])) else Err(OverflowException)
    ensures var t := TrimNumber(s); |t| > 0 && t[0] == '-' && IsDigits(t[1..]) ==>
      r == if DigitsValue(t[1..]) <= 0x8000_0000 then Ok(0 - DigitsValue(t[1..])) else Err(OverflowException)
  {
    var t := TrimNumber(s);
    var digits := Unsigned(t);
    if !IsDigits(digits) then Err(FormatException)
    else
      var v: int := if t[0] == '-' then 0 - DigitsValue(digits) as int else DigitsValue(digits);
      if v < -0x8000_0000 || v > 0x7FFF_FFFF then Err(OverflowException) else Ok(v)
  }

  /** A run of digits has no white space to trim. */
  lemma TrimDigits(s: string)
    requires IsDigits(s)
    ensures TrimNumber(s) == s
  {
    assert !IsNumberWhite(s[0]);
    assert TrimStart(s) == s;
    assert !IsNumberWhite(s[|s| - 1]);
  }

  /** The decimal text of a 32-bit integer: a '-' before the digits of a negative one. */
  function IntToString(n: int): (s: string)
    ensures |s| > 0
  {
    if n < 0 then "-" + NatToString(0 - n) else NatToString(n)
  }

  /** `int.Parse` reads back the text of every 32-bit integer, also with white space
      around it. */
  lemma ParseInt32IntToString(n: int, before: string, after: string)
    requires -0x8000_0000 <= n <= 0x7FFF_FFFF
    requires forall i :: 0 <= i < |before| ==> IsNumberWhite(before[i])
    requires forall i :: 0 <= i < |after| ==> IsNumberWhite(after[i])
    ensures ParseInt32(before + IntToString(n) + after) == Ok(n)
  {
    var text := IntToString(n);
    var s := before + text + after;
    assert !IsNumberWhite(text[0]);
    assert !IsNumberWhite(text[|text| - 1]);
    TrimAround(before, text, after);
    assert TrimNumber(s) == text;
    if n < 0 {
      assert text[1..] == NatToString(0 - n);
      DigitsValueNatToString(0 - n);
    } else {
      DigitsValueNatToString(n);
    }
  }

  /** Trimming white space around a text that neither starts nor ends with white space
      gives that text. */
  lemma {:induction false} TrimAround(before: string, text: string, after: string)
    requires |text| > 0 && !IsNumberWhite(text[0]) && !IsNumberWhite(text[|text| - 1])
    requires forall i :: 0 <= i < |before| ==> IsNumberWhite(before[i])
    requires forall i :: 0 <= i < |after| ==> IsNumberWhite(after[i])
    ensures TrimNumber(before + text + after) == text
  {
    TrimStartWhite(before, text + after);
    assert before + text + after == before + (text + after);
    TrimEndWhite(text, after);
  }

  lemma {:induction false} TrimStartWhite(white: string, rest: string)
    requires forall i :: 0 <= i < |white| ==> IsNumberWhite(white[i])
    requires |rest| > 0 && !IsNumberWhite(rest[0])
    ensures TrimStart(white + rest) == rest
    decreases |white|
  {
    if |white| > 0 {
      assert (white + rest)[1..] == white[1..] + rest;
      TrimStartWhite(white[1..], rest);
    } else {
      assert white + rest == rest;
    }
  }

  lemma {:induction false} TrimEndWhite(rest: string, white: string)
    requires forall i :: 0 <= i < |white| ==> IsNumberWhite(white[i])
    requires |rest| > 0 && !IsNumberWhite(rest[|rest| - 1])
    ensures TrimEnd(rest + white) == rest
    decreases |white|
  {
    if |white| > 0 {
      assert (rest + white)[..|rest + white| - 1] == rest + white[..|white| - 1];
      TrimEndWhite(rest, white[..|white| - 1]);
    } else {
      assert rest + white == rest;
    }
  }
}

=== FILE: package_base.dfy ===
/** `PackageBase`: the fields every package record shares, its status enumeration and the
    predicates derived from its fields. */
module PackageBase {
  import opened Prelude

  /** `PackageStatus`. */
  datatype PackageStatus = Unknown | None | DownloadReady | Downloaded | Installed

  /** The numeric value of each status in the enum declaration. */
  function StatusValue(s: PackageStatus): nat {
    match s
    case Unknown => 0xFFFF
    case None => 0
    case DownloadReady => 1
    case Downloaded => 2
    case Installed => 3
  }

  /** A Uniform Resource Name: namespace identifier and namespace-specific string. */
  datatype Urn = Urn(namespace: string, nss: string)

  /** An `IStorageItem` on disk, known by its path. */
  datatype StorageItem = StorageItem(path: string)

  /** `ImageType`, the kinds of image a listing carries. */
  datatype ImageType = Tile | Logo | Poster | Hero | Screenshot | BoxArt | OtherImage

  /** An image descriptor: its kind, pixel width, address and (for store images) the
      `ImagePositionInfo` string such as "Desktop/2". */
  datatype Image = Image(kind: ImageType, width: int, url: string, position: Nullable<string>)

  /** The state of one `PackageBase` object. `urn` is the backing field of the abstract `Urn`
      property; `shortTitleField` is `_ShortTitle`, read through `ShortTitle`. */
  datatype Record = Record(
    urn: Nullable<Urn>,
    status: PackageStatus,
    downloadItem: Nullable<StorageItem>,
    title: Nullable<string>,
    publisherId: Nullable<string>,
    developerName: Nullable<string>,
    description: Nullable<string>,
    version: Nullable<string>,
    price: real,
    displayPrice: Nullable<string>,
    shortTitleField: Nullable<string>,
    website: Nullable<string>,
    images: seq<Image>)

  /** A freshly constructed record: every field at its initializer. */
  function NewRecord(): Record {
    Record(Null, Unknown, Null, Null, Null, Null, Null, Null, -1.0, Null, Null, Null, [])
  }

  /** A fresh record has status Unknown, no price, no display price, no website, no short
      title, no images; Unknown is the numerically largest status and the five values are
      distinct. */
  lemma NewRecordDefaults()
    ensures NewRecord().status == Unknown
    ensures !HasPrice(NewRecord()) && !HasDisplayPrice(NewRecord()) && !HasWebsite(NewRecord())
    ensures ShortTitle(NewRecord()) == Null && NewRecord().images == []
    ensures forall s: PackageStatus :: s != Unknown ==> StatusValue(s) < StatusValue(Unknown)
    ensures forall s: PackageStatus, t: PackageStatus :: StatusValue(s) == StatusValue(t) ==> s == t
  {
  }

  /** `HasPrice`. */
  predicate HasPrice(r: Record) {
    r.price >= 0.0
  }

  /** `HasDisplayPrice`. */
  predicate HasDisplayPrice(r: Record) {
    r.displayPrice.Some?
  }

  /** `HasWebsite`. */
  predicate HasWebsite(r: Record) {
    r.website.Some?
  }

  /** The flags read their fields only: a price counts iff it is not negative, so the -1
      default means none, and a display price or website counts iff it is not null. */
  lemma AvailabilityFlags(r: Record, price: real)
    ensures HasPrice(r.(price := price)) <==> price >= 0.0
    ensures !HasPrice(r.(price := -1.0))
    ensures HasDisplayPrice(r) <==> r.displayPrice != Null
    ensures HasWebsite(r) <==> r.website != Null
    ensures HasDisplayPrice(r.(price := price)) == HasDisplayPrice(r) && HasWebsite(r.(price := price)) == HasWebsite(r)
  {
  }

  /** The `ShortTitle` getter: `_ShortTitle ?? Title`. */
  function ShortTitle(r: Record): (t: Nullable<string>)
    ensures t == r.shortTitleField || t == r.title
    ensures t.Null? <==> r.shortTitleField.Null? && r.title.Null?
    ensures r.shortTitleField.Some? ==> t == r.shortTitleField
  {
    if r.shortTitleField.Some? then r.shortTitleField else r.title
  }

  /** The `ShortTitle` setter: stores `_ShortTitle` and nothing else. */
  function SetShortTitle(r: Record, v: Nullable<string>): Record {
    r.(shortTitleField := v)
  }

  /** Setting a short title makes the getter return it; clearing it makes the getter fall
      back to the title; neither touches the title. */
  lemma ShortTitleFallback(r: Record, v: Nullable<string>)
    ensures SetShortTitle(r, v).title == r.title
    ensures v.Some? ==> ShortTitle(SetShortTitle(r, v)) == v
    ensures v.Null? ==> ShortTitle(SetShortTitle(r, v)) == r.title
    ensures ShortTitle(r).Null? <==> r.shortTitleField.Null? && r.title.Null?
  {
  }

  /** `Equals(PackageBase other)`: `this.Urn.Equals(other.Urn)`, which throws when this
      package has no URN and is false when only the other one lacks it. */
  function Equals(a: Record, b: Record): (r: Result<bool, Exception>)
    ensures r.Err? <==> a.urn.Null?
    ensures r.Ok? ==> (r.value <==> b.urn.Some? && b.urn.value == a.urn.value)
  {
    if a.urn.Null? then Err(NullReferenceException) else Ok(a.urn == b.urn)
  }

  /** Equality looks at the URN alone: two records with the same URN are equal whatever
      their other fields, in either order, and records with different URNs are not. */
  lemma EqualsByUrnOnly(a: Record, b: Record)
    requires a.urn.Some? && b.urn.Some?
    ensures Equals(a, b) == Equals(b, a)
    ensures Equals(a, b) == Ok(true) <==> a.urn == b.urn
    ensures Equals(a, b) == Equals(a.(title := b.title, status := b.status, images := b.images), b)
  {
  }

  /** What `GetCannotBeInstalledReason()` hands back: the base implementation returns a
      null `Task`, an override returns a task that completes with a reason or null. */
  datatype ReasonTask = NullTask | Task(reason: Nullable<string>)

  /** The base `GetCannotBeInstalledReason()`. */
  function BaseCannotBeInstalledReason(): ReasonTask {
    NullTask
  }

  /** `CanBeInstalled()` as written: it compares the returned task, not its result, to
      null. */
  function CanBeInstalledAsWritten(t: ReasonTask): (ok: bool)
    ensures ok <==> t == NullTask
  {
    t.NullTask?
  }

  /** As written, a package keeping the base implementation can be installed, and every
      overriding package cannot, even when its reason is null. */
  lemma CanBeInstalledIgnoresReason(reason: Nullable<string>)
    ensures CanBeInstalledAsWritten(BaseCannotBeInstalledReason())
    ensures !CanBeInstalledAsWritten(Task(reason))
    ensures !CanBeInstalledAsWritten(Task(Null))
  {
  }

  /** The reason a task carries; a null task carries none. */
  function AwaitedReason(t: ReasonTask): Nullable<string> {
    if t.NullTask? then Null else t.reason
  }

  /** `CanBeInstalled()` as documented: installable exactly when there is no reason. */
  function CanBeInstalled(t: ReasonTask): (ok: bool)
    ensures ok <==> AwaitedReason(t).Null?
    ensures t.Task? ==> (ok <==> t.reason.Null?)
  {
    t.NullTask? || t.reason.Null?
  }

  /** `OnDownloaded(item)`, the hook the base leaves empty. */
  function BaseOnDownloaded(r: Record, item: Nullable<StorageItem>): Record {
    r
  }

  /** The `DownloadItem` setter: it runs `onDownloaded` on the record as it was, before
      the new item is stored, then stores the item over whatever the hook left. */
  function SetDownloadItem(r: Record, item: Nullable<StorageItem>,
                           onDownloaded: (Record, Nullable<StorageItem>) -> Record): (r': Record)
    ensures r'.downloadItem == item
    ensures r'.(downloadItem := r.downloadItem) == onDownloaded(r, item).(downloadItem := r.downloadItem)
  {
    onDownloaded(r, item).(downloadItem := item)
  }

  /** With the base hook, setting the download item changes that field and nothing else;
      the hook is always shown the previous item. */
  lemma SetDownloadItemWithBaseHook(r: Record, item: Nullable<StorageItem>)
    ensures SetDownloadItem(r, item, BaseOnDownloaded) == r.(downloadItem := item)
    ensures SetDownloadItem(r, item, (s: Record, i: Nullable<StorageItem>) => s.(title := Some(s.downloadItem.OrElse(StorageItem("")).path))).title
            == Some(r.downloadItem.OrElse(StorageItem("")).path)
  {
  }
}

=== FILE: packaged_installer_helper.dfy ===
/** `PackagedInstallerHelper`: installer-format sniffing, the architecture gate, and the
    install, launch and is-installed calls for MSIX/AppX packages, with the file system,
    the package manager and the launcher replaced by the outcomes they report. */
module PackagedInstallerHelper {
  import opened Prelude
  import opened Windows
  import opened Messages
  import opened PackageBase

  newtype byte = x: int | 0 <= x < 256

  /** The ZIP local file header signature "PK\x03\x04" (section 4.3.7 of PKWARE's
      APPNOTE.TXT), read big-endian. */
  const ZipSignature: nat := 0x504B0304

  /** The signature of an encrypted installer bundle, "EXBH" read big-endian. */
  const EncryptedSignature: nat := 0x45584248

  /** The content type the OPC `[Content_Types].xml` part gives a bundle manifest. */
  const BundleManifestContentType: string := "application/vnd.ms-appx.bundlemanifest+xml"

  /** `InstallerType`: a combination of the Msix, AppX and Bundle flags, or one of the two
      named values the classifier assigns whole. Unknown is the empty combination. */
  datatype InstallerType = Flags(msix: bool, appx: bool, bundle: bool) | AppXBundle | EAppXBundle

  const Unknown: InstallerType := Flags(false, false, false)

  /** A `Default` element of the OPC content-types part (clause 10.1.2 of ECMA-376 Part 2):
      its `Extension` and `ContentType` attributes. */
  datatype ContentTypeDefault = Default(extension: string, contentType: string)

  /** The 4-byte buffer after `stream.Read(bytes, 0, 4)`: the buffer starts zeroed and the
      count read is ignored, so a shorter stream leaves trailing zeros. */
  function Prefix(stream: seq<byte>): (b: seq<byte>)
    ensures |b| == 4
    ensures forall i :: 0 <= i < 4 ==> b[i] == if i < |stream| then stream[i] else 0
  {
    seq(4, i requires 0 <= i < 4 => if i < |stream| then stream[i] else 0)
  }

  /** The four bytes of a 32-bit value, most significant first. */
  function BigEndianBytes(m: nat): seq<int>
    requires m < 0x1_0000_0000
  {
    [m / 0x100_0000, m / 0x1_0000 % 0x100, m / 0x100 % 0x100, m % 0x100]
  }

  /** `(uint)((b[0] << 24) | (b[1] << 16) | (b[2] << 8) | b[3])`. The shifts are on `int`,
      so a first byte of 0x80 or more makes a negative intermediate, but the cast back to
      `uint` restores the same 32 bits: the magic is the big-endian value of the prefix. */
  function Magic(stream: seq<byte>): (m: nat)
    ensures m < 0x1_0000_0000
  {
    var b := Prefix(stream);
    b[0] as nat * 0x100_0000 + b[1] as nat * 0x1_0000 + b[2] as nat * 0x100 + b[3] as nat
  }

  /** The magic number determines the four prefix bytes, first byte most significant. */
  lemma MagicIsBigEndian(stream: seq<byte>)
    ensures BigEndianBytes(Magic(stream)) == seq(4, i requires 0 <= i < 4 => Prefix(stream)[i] as int)
  {
    var b := Prefix(stream);
    var b0, b1, b2, b3 := b[0] as nat, b[1] as nat, b[2] as nat, b[3] as nat;
    var m := Magic(stream);
    var low := b1 * 0x1_0000 + b2 * 0x100 + b3;
    assert m == b0 * 0x100_0000 + low;
    assert m / 0x100_0000 == b0;
    var mid := b2 * 0x100 + b3;
    assert m / 0x1_0000 == b0 * 0x100 + b1;
    assert m / 0x1_0000 % 0x100 == b1;
    assert m / 0x100 == (b0 * 0x100 + b1) * 0x100 + b2;
    assert m / 0x100 % 0x100 == b2;
    assert m % 0x100 == b3;
  }

  /** Whether any `Default` declares extension `ext`. */
  predicate AnyExtension(defaults: seq<ContentTypeDefault>, ext: string) {
    exists i :: 0 <= i < |defaults| && defaults[i].extension == ext
  }

  /** Whether any `Default` declares the bundle-manifest content type. */
  predicate AnyBundleManifest(defaults: seq<ContentTypeDefault>) {
    exists i :: 0 <= i < |defaults| && defaults[i].contentType == BundleManifestContentType
  }

  /** The type of a ZIP payload from its content-type defaults. Msix is set by an "msix"
      extension; AppX only when there is no "msix" one (an else-if), so the two never
      coexist; Bundle by the bundle-manifest content type whatever the other two say; and
      a payload that set no flag is taken for an AppXBundle, never Unknown. */
  function ArchiveType(defaults: seq<ContentTypeDefault>): (t: InstallerType)
    ensures t != Unknown && t != EAppXBundle
    ensures t.Flags? ==> !(t.msix && t.appx)
    ensures t.Flags? ==> (t.msix <==> AnyExtension(defaults, "msix"))
    ensures t.Flags? ==> (t.appx <==> !AnyExtension(defaults, "msix") && AnyExtension(defaults, "appx"))
    ensures t.Flags? ==> (t.bundle <==> AnyBundleManifest(defaults))
    ensures t == AppXBundle <==>
      !AnyExtension(defaults, "msix") && !AnyExtension(defaults, "appx") && !AnyBundleManifest(defaults)
  {
    var t := Flags(AnyExtension(defaults, "msix"),
                   !AnyExtension(defaults, "msix") && AnyExtension(defaults, "appx"),
                   AnyBundleManifest(defaults));
    if t == Unknown then AppXBundle else t
  }

  /** The same classification computed in one pass over the `Default` elements, the way
      the three `Any` scans visit them. */
  method ScanContentTypes(defaults: seq<ContentTypeDefault>) returns (t: InstallerType)
    ensures t == ArchiveType(defaults)
  {
    var msix, appx, bundle := false, false, false;
    var i := 0;
    while i < |defaults|
      invariant 0 <= i <= |defaults|
      invariant msix <==> exists j :: 0 <= j < i && defaults[j].extension == "msix"
      invariant appx <==> exists j :: 0 <= j < i && defaults[j].extension == "appx"
      invariant bundle <==> exists j :: 0 <= j < i && defaults[j].contentType == BundleManifestContentType
    {
      var d := defaults[i];
      msix := msix || d.extension == "msix";
      appx := appx || d.extension == "appx";
      bundle := bundle || d.contentType == BundleManifestContentType;
      i := i + 1;
    }
    t := Flags(msix, !msix && appx, bundle);
    if t == Unknown {
      t := AppXBundle;
    }
  }

  /** `GetInstallerType(file)`. `contentTypes` is what the archive's `[Content_Types].xml`
      entry lists, or null when the archive has no such entry (then `entry.Open()` throws).
      The archive is only consulted for the ZIP signature. */
  function GetInstallerType(stream: seq<byte>, contentTypes: Nullable<seq<ContentTypeDefault>>)
    : (r: Result<InstallerType, Exception>)
    ensures Magic(stream) == ZipSignature && contentTypes.Null? ==> r == Err(NullReferenceException)
    ensures Magic(stream) == ZipSignature && contentTypes.Some? ==> r == Ok(ArchiveType(contentTypes.value))
    ensures Magic(stream) == EncryptedSignature ==> r == Ok(EAppXBundle)
    ensures Magic(stream) != ZipSignature && Magic(stream) != EncryptedSignature ==> r == Ok(Unknown)
  {
    var magic := Magic(stream);
    if magic == ZipSignature then
      if contentTypes.Null? then Err(NullReferenceException) else Ok(ArchiveType(contentTypes.value))
    else if magic == EncryptedSignature then Ok(EAppXBundle)
    else Ok(Unknown)
  }

  /** A stream shorter than four bytes is zero-padded, and both signatures end in a non-zero
      byte, so it is always Unknown, whatever the archive would say. */
  lemma ShortStreamIsUnknown(stream: seq<byte>, contentTypes: Nullable<seq<ContentTypeDefault>>)
    requires |stream| < 4
    ensures GetInstallerType(stream, contentTypes) == Ok(Unknown)
  {
    assert Prefix(stream)[3] == 0;
    assert Magic(stream) % 0x100 == 0;
  }

  /** The classifier's result is Unknown exactly when the magic is neither signature; a ZIP
      payload that can be read is never Unknown. */
  lemma UnknownIffNoSignature(stream: seq<byte>, defaults: seq<ContentTypeDefault>)
    ensures GetInstallerType(stream, Some(defaults)) == Ok(Unknown)
      <==> Magic(stream) != ZipSignature && Magic(stream) != EncryptedSignature
  {
  }

  /** The message for a platform the converter cannot name. */
  const UnidentifiedPlatform: string := "Cannot identify the current Windows platform."

  /** `GetCannotBeInstalledReason(installerFile, isBundle)` once the manifest has been read:
      `architectures` lists the architectures it declares, `currentPlatform` is the parsed
      device family, `current` the running package's architecture. The platform allow-list
      check is commented out, so only the platform being known and the architecture count. */
  function GetCannotBeInstalledReason(currentPlatform: Nullable<PlatWindows>,
                                      architectures: seq<ProcessorArchitecture>,
                                      current: ProcessorArchitecture): (reason: Nullable<string>)
    ensures currentPlatform.Null? ==> reason == Some(UnidentifiedPlatform)
    ensures currentPlatform.Some? ==> (reason.Null? <==> current in architectures)
    ensures currentPlatform.Some? && current !in architectures
      ==> reason == Some("Package does not support " + ArchitectureName(current))
  {
    if currentPlatform.Null? then Some(UnidentifiedPlatform)
    else if current !in architectures then Some("Package does not support " + ArchitectureName(current))
    else Null
  }

  /** Which known platform is running never matters, and adding the current architecture to
      the manifest's list is the only way to clear an architecture rejection. */
  lemma ArchitectureGateIgnoresPlatform(p: PlatWindows, q: PlatWindows,
                                        architectures: seq<ProcessorArchitecture>,
                                        current: ProcessorArchitecture)
    ensures GetCannotBeInstalledReason(Some(p), architectures, current)
         == GetCannotBeInstalledReason(Some(q), architectures, current)
    ensures GetCannotBeInstalledReason(Some(p), architectures + [current], current).Null?
    ensures GetCannotBeInstalledReason(Some(p), architectures, current).Some?
        ==> GetCannotBeInstalledReason(Some(p), architectures, current) != Some(UnidentifiedPlatform)
  {
    assert (architectures + [current])[|architectures|] == current;
  }

  /** `IsInstalled(packageFamilyName)` given what `Launcher.QueryUriSupportAsync` answered. */
  function IsInstalled(status: LaunchQuerySupportStatus): (installed: bool)
    ensures installed <==> status == Available || status == NotSupported
    ensures status in {AppNotInstalled, AppUnavailable, UnknownSupport} ==> !installed
  {
    match status
    case Available | NotSupported => true
    case _ => false
  }

  /** What `PackageManager.AddPackageByUriAsync` reports. */
  datatype DeploymentResult = DeploymentResult(isRegistered: bool, errorText: string)

  /** A flow's outcome: the messages it sent, the package afterwards, and what it returned or
      threw. */
  datatype Outcome = Outcome(events: seq<Message>, package: Record, result: Result<bool, Exception>)

  /** `Install(package)`. The progress callback is built but never handed to the package
      manager, so no progress message is sent; a package without a download item throws
      when its path is read, after the start message. */
  function Install(package: Record, registration: DeploymentResult): (o: Outcome)
    ensures o.package == package
    ensures |o.events| >= 1 && o.events[0] == InstallStarted
    ensures forall i :: 0 <= i < |o.events| ==> !IsProgress(o.events[i]) && StepOf(o.events[i]) == InstallStep
    ensures package.downloadItem.Null? ==> o.events == [InstallStarted] && o.result == Err(NullReferenceException)
    ensures package.downloadItem.Some? ==> |o.events| == 2 && IsTerminal(o.events[1]) && o.result.Ok?
    ensures o.result == Ok(true) <==> package.downloadItem.Some? && registration.isRegistered
    ensures o.result == Ok(false) <==> o.events == [InstallStarted, InstallFailed(registration.errorText)]
  {
    if package.downloadItem.Null? then Outcome([InstallStarted], package, Err(NullReferenceException))
    else if !registration.isRegistered then
      Outcome([InstallStarted, InstallFailed(registration.errorText)], package, Ok(false))
    else Outcome([InstallStarted, InstallCompleted], package, Ok(true))
  }

  /** Whenever the package has a download item, an install sends exactly one terminal
      message, and it is the last one. */
  lemma InstallHasOneTerminal(package: Record, registration: DeploymentResult)
    requires package.downloadItem.Some?
    ensures TerminalCount(Install(package, registration).events, InstallStep) == 1
  {
    var e := Install(package, registration).events;
    assert e[..1] == [InstallStarted];
    assert [InstallStarted][..0] == [];
  }

  /** An entry of an installed package's app list. */
  datatype AppListEntry = AppListEntry(appUserModelId: string)

  /** A package installed for the current user. */
  datatype InstalledPackage = InstalledPackage(familyName: string, apps: seq<AppListEntry>)

  /** `FindPackagesForUser(string.Empty, familyName).FirstOrDefault()`. */
  function FirstOfFamily(installed: seq<InstalledPackage>, familyName: string): (p: Nullable<InstalledPackage>)
    ensures p.Null? <==> forall i :: 0 <= i < |installed| ==> installed[i].familyName != familyName
    ensures p.Some? ==> p.value.familyName == familyName && exists i :: (
      && 0 <= i < |installed| && installed[i] == p.value
      && forall j :: 0 <= j < i ==> installed[j].familyName != familyName)
  {
    if |installed| == 0 then Null
    else if installed[0].familyName == familyName then Some(installed[0])
    else
      var p := FirstOfFamily(installed[1..], familyName);
      p
  }

  /** `Launch(packageFamilyName)`: launches the first app of the first installed package of
      that family; `launch` is what `AppListEntry.LaunchAsync` reports. A family with no
      installed package, or a package with no app, gives false without launching. */
  function Launch(packageFamilyName: string, installed: seq<InstalledPackage>,
                  launch: AppListEntry -> bool): (ok: bool)
    ensures (forall i :: 0 <= i < |installed| ==> installed[i].familyName != packageFamilyName) ==> !ok
    ensures ok <==> exists i :: (
      && 0 <= i < |installed| && installed[i].familyName == packageFamilyName
      && (forall j :: 0 <= j < i ==> installed[j].familyName != packageFamilyName)
      && |installed[i].apps| > 0 && launch(installed[i].apps[0]))
  {
    var pkg := FirstOfFamily(installed, packageFamilyName);
    pkg.Some? && |pkg.value.apps| > 0 && launch(pkg.value.apps[0])
  }
}

=== FILE: prelude.dfy ===
/** Shared wrappers: a C# reference that may be null, and an operation that may throw. */
module Prelude {

  /** A value that may be `null` in the source. */
  datatype Nullable<+T> = Null | Some(value: T) {

    /** The C# `??` operator: this value, or `fallback` when it is null. */
    function OrElse(fallback: T): T {
      match this
      case Some(v) => v
      case Null => fallback
    }
  }

  /** The .NET exceptions the core can raise or let escape. */
  datatype Exception =
    | NullReferenceException         // a member access on null
    | ArgumentOutOfRangeException    // an index or substring bound outside the collection
    | ArgumentException              // a `Guard` check or an explicit argument rejection
    | NotSupportedException          // thrown explicitly by a handler
    | FormatException                // `int.Parse` on malformed text
    | OverflowException              // `int.Parse` on a value outside 32 bits

  /** The outcome of an operation that either returns a value or throws `error`. */
  datatype Result<+T, +E> = Ok(value: T) | Err(error: E)
}

=== FILE: strings.dfy ===
/** The pieces of `System.String` the core relies on: character search, `Split` without
    options, ordinal prefix tests, ASCII case folding and decimal digits. */
module Strings {
  import opened Prelude

  /** Position of the first `c` in `s`, or -1 (`String.IndexOf(char)`). */
  function IndexOf(s: string, c: char): (r: int)
    ensures r == -1 <==> c !in s
    ensures r != -1 ==> 0 <= r < |s| && s[r] == c && c !in s[..r]
  {
    if |s| == 0 then -1
    else if s[0] == c then 0
    else
      var k := IndexOf(s[1..], c);
      assert s[1..][..if k < 0 then 0 else k] == s[1..1 + if k < 0 then 0 else k];
      if k == -1 then -1 else k + 1
  }

  /** Position of the last `c` in `s`, or -1 (`String.LastIndexOf(char)`). */
  function LastIndexOf(s: string, c: char): (r: int)
    ensures r == -1 <==> c !in s
    ensures r != -1 ==> 0 <= r < |s| && s[r] == c && c !in s[r + 1..]
  {
    if |s| == 0 then -1
    else if s[|s| - 1] == c then |s| - 1
    else
      var k := LastIndexOf(s[..|s| - 1], c);
      assert k != -1 ==> s[k + 1..] == s[..|s| - 1][k + 1..] + [s[|s| - 1]];
      k
  }

  /** `s.Split(sep)` with no options: every separator starts a new segment and empty
      segments are kept, so the result is never empty. */
  function Split(s: string, sep: char): (parts: seq<string>)
    ensures |parts| >= 1
    decreases |s|
  {
    var i := IndexOf(s, sep);
    if i == -1 then [s] else [s[..i]] + Split(s[i + 1..], sep)
  }

  /** `String.Join(sep, parts)`. */
  function Join(parts: seq<string>, sep: char): string
    requires |parts| >= 1
  {
    if |parts| == 1 then parts[0] else parts[0] + [sep] + Join(parts[1..], sep)
  }

  /** True when no element of `parts` contains `sep`. */
  predicate FreeOf(parts: seq<string>, sep: char) {
    forall i :: 0 <= i < |parts| ==> sep !in parts[i]
  }

  /** Splitting a segment, a separator and a rest peels off exactly that segment. */
  lemma SplitCons(head: string, sep: char, rest: string)
    requires sep !in head
    ensures Split(head + [sep] + rest, sep) == [head] + Split(rest, sep)
  {
    var s := head + [sep] + rest;
    assert s[|head|] == sep;
    assert s[..|head|] == head;
    var i := IndexOf(s, sep);
    assert s[..i] == head;
    assert s[i + 1..] == rest;
  }

  /** Split undoes Join when no segment contains the separator. */
  lemma {:induction false} SplitJoin(parts: seq<string>, sep: char)
    requires |parts| >= 1
    requires FreeOf(parts, sep)
    ensures Split(Join(parts, sep), sep) == parts
    decreases |parts|
  {
    var head := parts[0];
    assert sep !in head;
    if |parts| == 1 {
      assert Join(parts, sep) == head;
      assert IndexOf(head, sep) == -1;
      assert Split(head, sep) == [head];
    } else {
      var rest := parts[1..];
      assert FreeOf(rest, sep) by {
        forall i | 0 <= i < |rest| ensures sep !in rest[i] {
          assert rest[i] == parts[i + 1];
        }
      }
      SplitJoin(rest, sep);
      SplitCons(head, sep, Join(rest, sep));
      calc {
        Split(Join(parts, sep), sep);
        Split(head + [sep] + Join(rest, sep), sep);
        [head] + Split(Join(rest, sep), sep);
        [head] + rest;
        { assert parts == [head] + rest; }
        parts;
      }
    }
  }

  /** Join undoes Split: splitting loses nothing. */
  lemma {:induction false} JoinSplit(s: string, sep: char)
    ensures Join(Split(s, sep), sep) == s
    decreases |s|
  {
    var i := IndexOf(s, sep);
    if i != -1 {
      var tail := s[i + 1..];
      JoinSplit(tail, sep);
      JoinCons(s[..i], sep, Split(tail, sep));
      assert s == s[..i] + [sep] + tail;
    }
  }

  /** Joining a segment in front of further segments puts the separator between them. */
  lemma JoinCons(head: string, sep: char, rest: seq<string>)
    requires |rest| >= 1
    ensures Join([head] + rest, sep) == head + [sep] + Join(rest, sep)
  {
    assert ([head] + rest)[1..] == rest;
  }

  /** No segment produced by Split contains the separator. */
  lemma {:induction false} SplitFreeOf(s: string, sep: char)
    ensures FreeOf(Split(s, sep), sep)
    decreases |s|
  {
    var i := IndexOf(s, sep);
    if i != -1 {
      SplitFreeOf(s[i + 1..], sep);
      var parts := Split(s, sep);
      forall k | 0 <= k < |parts| ensures sep !in parts[k] {
        if k > 0 {
          assert parts[k] == Split(s[i + 1..], sep)[k - 1];
        }
      }
    }
  }

  /** A character that is neither the separator nor in any part is not in the join. */
  lemma {:induction false} JoinAvoids(parts: seq<string>, sep: char, c: char)
    requires |parts| >= 1 && c != sep && FreeOf(parts, c)
    ensures c !in Join(parts, sep)
    decreases |parts|
  {
    if |parts| > 1 {
      assert FreeOf(parts[1..], c) by {
        forall i | 0 <= i < |parts[1..]| ensures c !in parts[1..][i] {
          assert parts[1..][i] == parts[i + 1];
        }
      }
      JoinAvoids(parts[1..], sep, c);
      assert c !in parts[0];
    }
  }

  /** Ordinal `s.StartsWith(prefix)`. */
  predicate StartsWith(s: string, prefix: string) {
    |prefix| <= |s| && s[..|prefix|] == prefix
  }

  /** Invariant-culture lower-casing restricted to the ASCII letters. */
  function ToLowerAscii(c: char): char {
    if 'A' <= c <= 'Z' then (c as int + 32) as char else c
  }

  /** Case-insensitive comparison of two equally long strings, ASCII letters only. */
  predicate EqualsIgnoreCase(a: string, b: string) {
    |a| == |b| && forall i :: 0 <= i < |a| ==> ToLowerAscii(a[i]) == ToLowerAscii(b[i])
  }

  /** An ASCII decimal digit. */
  predicate IsDigit(c: char) {
    '0' <= c <= '9'
  }

  /** A possibly empty run of ASCII digits. */
  predicate AllDigits(s: string) {
    forall i :: 0 <= i < |s| ==> IsDigit(s[i])
  }

  /** A non-empty run of ASCII digits. */
  predicate IsDigits(s: string) {
    |s| > 0 && AllDigits(s)
  }

  /** The value of a run of ASCII digits, read most significant first. */
  function DigitsValue(s: string): nat
    requires AllDigits(s)
  {
    if |s| == 0 then 0
    else
      assert IsDigit(s[|s| - 1]);
      DigitsValue(s[..|s| - 1]) * 10 + (s[|s| - 1] as int - '0' as int)
  }

  /** The decimal text of `n` without leading zeros (`Int32.ToString()` for n >= 0). */
  function NatToString(n: nat): (s: string)
    ensures IsDigits(s)
    ensures |s| > 1 ==> s[0] != '0'
  {
    if n < 10 then ['0' + n as char]
    else NatToString(n / 10) + ['0' + (n % 10) as char]
  }

  /** Reading back the decimal text of `n` gives `n`. */
  lemma {:induction false} DigitsValueNatToString(n: nat)
    ensures DigitsValue(NatToString(n)) == n
  {
    var s := NatToString(n);
    if n >= 10 {
      assert s[..|s| - 1] == NatToString(n / 10);
      DigitsValueNatToString(n / 10);
    }
  }
}

=== FILE: versions.dfy ===
/** `System.Version`: two to four dot-separated non-negative 32-bit components, the
    missing build and revision reading as -1. */
module Versions {
  import opened Prelude
  import opened Strings
  import opened Numbers

  /** `Int32.MaxValue`, the largest component `Version` accepts. */
  const MaxComponent: nat := 0x7FFF_FFFF

  datatype Version = Version(parts: seq<nat>)

  /** The shapes `new Version(string)` can produce. */
  predicate Valid(v: Version) {
    2 <= |v.parts| <= 4 && forall i :: 0 <= i < |v.parts| ==> v.parts[i] <= MaxComponent
  }

  /** A `System.Version` object: always one of the valid shapes. */
  type SysVersion = v: Version | Valid(v) witness Version([0, 0])

  /** Component `i` (Major, Minor, Build, Revision); an absent one reads as -1. */
  function Component(v: Version, i: nat): int {
    if i < |v.parts| then v.parts[i] else -1
  }

  /** `Version.Revision`. */
  function Revision(v: Version): int {
    Component(v, 3)
  }

  /** `Version.CompareTo(other) < 0`: lexicographic over the four components. */
  predicate Less(a: Version, b: Version) {
    var a0, a1, a2, a3 := Component(a, 0), Component(a, 1), Component(a, 2), Component(a, 3);
    var b0, b1, b2, b3 := Component(b, 0), Component(b, 1), Component(b, 2), Component(b, 3);
    a0 < b0 || (a0 == b0 && (a1 < b1 || (a1 == b1 && (a2 < b2 || (a2 == b2 && a3 < b3)))))
  }

  /** Less is a strict total order on valid versions. */
  lemma LessIsStrictTotalOrder(a: Version, b: Version, c: Version)
    requires Valid(a) && Valid(b)
    ensures !Less(a, a)
    ensures Less(a, b) && Less(b, c) ==> Less(a, c)
    ensures a != b ==> Less(a, b) || Less(b, a)
  {
  }

  /** `a` has the smaller component `i`, and the components before `i` agree. */
  predicate SmallerAt(a: Version, b: Version, i: nat) {
    Component(a, i) < Component(b, i) && forall j :: 0 <= j < i ==> Component(a, j) == Component(b, j)
  }

  /** `CompareTo` as the first differing component decides it: `a` is older than `b` iff at
      some component it is smaller and all components before it agree. */
  lemma LessIsLexicographic(a: Version, b: Version)
    ensures Less(a, b) <==> exists i :: 0 <= i < 4 && SmallerAt(a, b, i)
  {
    if Less(a, b) {
      if Component(a, 0) < Component(b, 0) {
        assert SmallerAt(a, b, 0);
      } else if Component(a, 1) < Component(b, 1) {
        assert SmallerAt(a, b, 1);
      } else if Component(a, 2) < Component(b, 2) {
        assert SmallerAt(a, b, 2);
      } else {
        assert SmallerAt(a, b, 3);
      }
    }
    if exists i :: 0 <= i < 4 && SmallerAt(a, b, i) {
      var i :| 0 <= i < 4 && SmallerAt(a, b, i);
      assert i > 0 ==> Component(a, 0) == Component(b, 0);
      assert i > 1 ==> Component(a, 1) == Component(b, 1);
      assert i > 2 ==> Component(a, 2) == Component(b, 2);
    }
  }

  function ComponentTexts(parts: seq<nat>): (texts: seq<string>)
    ensures |texts| == |parts|
    ensures forall i :: 0 <= i < |parts| ==> texts[i] == NatToString(parts[i])
  {
    if |parts| == 0 then [] else [NatToString(parts[0])] + ComponentTexts(parts[1..])
  }

  function ComponentValues(texts: seq<string>): (parts: seq<nat>)
    requires forall i :: 0 <= i < |texts| ==> AllDigits(texts[i])
    ensures |parts| == |texts|
    ensures forall i :: 0 <= i < |texts| ==> parts[i] == DigitsValue(texts[i])
  {
    if |texts| == 0 then [] else [DigitsValue(texts[0])] + ComponentValues(texts[1..])
  }

  /** `Version.ToString()`: the defined components joined by '.'. */
  function ToString(v: Version): string
    requires Valid(v)
  {
    Join(ComponentTexts(v.parts), '.')
  }

  /** One component as `new Version(s)` reads it: `int.Parse` with `NumberStyles.Integer`
      (white space around it and a leading sign allowed), then rejected when negative. */
  function ParseComponent(text: string): (r: Nullable<nat>)
    ensures r.Some? ==> r.value <= MaxComponent
    ensures IsDigits(text) && DigitsValue(text) <= MaxComponent ==> r == Some(DigitsValue(text))
  {
    assert IsDigits(text) ==> TrimNumber(text) == text by {
      if IsDigits(text) {
        TrimDigits(text);
      }
    }
    match ParseInt32(text)
    case Ok(v) => if v >= 0 then Some(v as nat) else Null
    case Err(_) => Null
  }

  /** A component parses exactly when, once trimmed and stripped of its sign, it is a run
      of digits within range and a '-' sign stands only before zero; its value is that of
      the digits, so "-0" reads as 0. */
  lemma ParseComponentMeaning(text: string)
    ensures var d := Unsigned(TrimNumber(text));
      ParseComponent(text).Some?
      <==> IsDigits(d) && DigitsValue(d) <= MaxComponent && (TrimNumber(text)[0] == '-' ==> DigitsValue(d) == 0)
    ensures ParseComponent(text).Some? ==> ParseComponent(text).value == DigitsValue(Unsigned(TrimNumber(text)))
  {
  }

  /** The values of component texts that all parse. */
  function ComponentsOf(texts: seq<string>): (parts: seq<nat>)
    requires forall i :: 0 <= i < |texts| ==> ParseComponent(texts[i]).Some?
    ensures |parts| == |texts|
    ensures forall i :: 0 <= i < |texts| ==> Some(parts[i]) == ParseComponent(texts[i])
  {
    if |texts| == 0 then []
    else
      var tail := texts[1..];
      assert forall i :: 0 <= i < |tail| ==> tail[i] == texts[i + 1];
      var rest := ComponentsOf(tail);
      var parts := [ParseComponent(texts[0]).value] + rest;
      assert forall i :: 0 < i < |parts| ==> parts[i] == rest[i - 1];
      parts
  }

  /** Texts each made of digits within range: the predicate `new Version(s)` certainly
      accepts. */
  predicate AllPlainComponents(texts: seq<string>) {
    forall i :: 0 <= i < |texts| ==> IsDigits(texts[i]) && DigitsValue(texts[i]) <= MaxComponent
  }

  /** Plain digit texts read as their decimal values. */
  lemma {:induction false} ComponentsOfPlain(texts: seq<string>)
    requires AllPlainComponents(texts)
    ensures forall i :: 0 <= i < |texts| ==> ParseComponent(texts[i]).Some?
    ensures ComponentsOf(texts) == ComponentValues(texts)
  {
    var parts := ComponentsOf(texts);
    forall i | 0 <= i < |texts| ensures parts[i] == DigitsValue(texts[i]) {
      assert ParseComponent(texts[i]) == Some(DigitsValue(texts[i]));
    }
  }

  /** The version made of the component texts, when there are two to four and each
      parses. */
  function ParseTexts(texts: seq<string>): (r: Nullable<Version>)
    ensures r.Some? ==> Valid(r.value) && |r.value.parts| == |texts|
    ensures r.Some? ==> forall i :: 0 <= i < |texts| ==> Some(r.value.parts[i]) == ParseComponent(texts[i])
    ensures r.Null? <==> !(2 <= |texts| <= 4) || exists i :: 0 <= i < |texts| && ParseComponent(texts[i]).Null?
  {
    if 2 <= |texts| <= 4 && forall i :: 0 <= i < |texts| ==> ParseComponent(texts[i]).Some?
    then Some(Version(ComponentsOf(texts)))
    else Null
  }

  /** `new Version(s)`, null where the constructor throws: two to four '.'-separated
      components, each of which `ParseComponent` accepts. */
  function Parse(s: string): (r: Nullable<Version>)
    ensures r.Some? ==> Valid(r.value) && |r.value.parts| == |Split(s, '.')|
    ensures r.Some? ==> forall i :: 0 <= i < |r.value.parts| ==> Some(r.value.parts[i]) == ParseComponent(Split(s, '.')[i])
    ensures var texts := Split(s, '.');
      r.Null? <==> !(2 <= |texts| <= 4) || exists i :: 0 <= i < |texts| && ParseComponent(texts[i]).Null?
    ensures var texts := Split(s, '.');
      2 <= |texts| <= 4 && AllPlainComponents(texts) ==> r == Some(Version(ComponentValues(texts)))
  {
    var texts := Split(s, '.');
    assert 2 <= |texts| <= 4 && AllPlainComponents(texts) ==> ParseTexts(texts) == Some(Version(ComponentValues(texts))) by {
      if AllPlainComponents(texts) {
        ComponentsOfPlain(texts);
      }
    }
    ParseTexts(texts)
  }

  /** Parsing the text of a valid version gives that version back. */
  lemma ParseToString(v: Version)
    requires Valid(v)
    ensures Parse(ToString(v)) == Some(v)
  {
    var texts := ComponentTexts(v.parts);
    ToStringComponents(v);
    forall i | 0 <= i < |texts| ensures IsDigits(texts[i]) && DigitsValue(texts[i]) == v.parts[i] <= MaxComponent {
      DigitsValueNatToString(v.parts[i]);
    }
    ValuesOfTexts(v.parts);
  }

  /** The text of a version splits at '.' into the decimal texts of its defined
      components, one per component and in order. */
  lemma ToStringComponents(v: Version)
    requires Valid(v)
    ensures Split(ToString(v), '.') == ComponentTexts(v.parts)
    ensures forall i :: 0 <= i < |v.parts| ==> Split(ToString(v), '.')[i] == NatToString(v.parts[i])
  {
    var texts := ComponentTexts(v.parts);
    assert FreeOf(texts, '.') by {
      forall i | 0 <= i < |texts| ensures '.' !in texts[i] {
        assert AllDigits(texts[i]);
        assert forall j :: 0 <= j < |texts[i]| ==> IsDigit(texts[i][j]) && texts[i][j] != '.';
      }
    }
    SplitJoin(texts, '.');
  }

  /** Reading back the decimal texts of components gives the components. */
  lemma {:induction false} ValuesOfTexts(parts: seq<nat>)
    ensures ComponentValues(ComponentTexts(parts)) == parts
    decreases |parts|
  {
    if |parts| > 0 {
      DigitsValueNatToString(parts[0]);
      ValuesOfTexts(parts[1..]);
    }
  }
  /** A text with one '.' splits into the two texts around it. */
  lemma SplitTwo(a: string, b: string)
    requires '.' !in a && '.' !in b
    ensures Split(a + "." + b, '.') == [a, b]
  {
    SplitCons(a, '.', b);
    assert a + "." + b == a + ['.'] + b;
  }

  /** Like `int.Parse`, the constructor accepts white space around a component and a
      leading sign: a '+' or no sign reads as the digits' value, a '-' is accepted only
      before zero. */
  lemma SignedPaddedComponent(before: string, sign: string, n: nat, after: string)
    requires forall i :: 0 <= i < |before| ==> IsNumberWhite(before[i])
    requires forall i :: 0 <= i < |after| ==> IsNumberWhite(after[i])
    requires sign == "" || sign == "+" || sign == "-"
    requires n <= MaxComponent
    ensures ParseComponent(before + sign + NatToString(n) + after) == if sign == "-" && n > 0 then Null else Some(n)
  {
    var digits := NatToString(n);
    var text := sign + digits;
    var x := before + sign + digits + after;
    assert text[|text| - 1] == digits[|digits| - 1];
    assert x == before + text + after;
    TrimAround(before, text, after);
    DigitsValueNatToString(n);
    if sign == "" {
      assert text == digits;
      assert ParseInt32(x) == Ok(n);
    } else {
      assert text[1..] == digits;
      assert ParseInt32(x) == if sign == "-" then Ok(0 - n) else Ok(n);
    }
  }

  /** A text with one '.' parses component by component. */
  lemma ParseTwo(a: string, b: string)
    requires '.' !in a && '.' !in b
    ensures Parse(a + "." + b)
         == if ParseComponent(a).Some? && ParseComponent(b).Some?
            then Some(Version([ParseComponent(a).value, ParseComponent(b).value]))
            else Null
  {
    SplitTwo(a, b);
    var texts := [a, b];
    if ParseComponent(a).Some? && ParseComponent(b).Some? {
      assert ComponentsOf(texts) == [ParseComponent(a).value, ParseComponent(b).value];
    } else {
      assert ParseComponent(texts[0]).Null? || ParseComponent(texts[1]).Null?;
    }
  }

  /** "+1.2" is the version 1.2. */
  lemma PlusSignedVersion()
    ensures Parse("+1.2") == Some(Version([1, 2]))
  {
    var a, b := "+1", "2";
    assert a + "." + b == "+1.2";
    assert ParseComponent(a) == Some(1) by {
      SignedPaddedComponent("", "+", 1, "");
      assert a == "" + "+" + NatToString(1) + "";
    }
    assert ParseComponent(b) == Some(2);
    ParseTwo(a, b);
  }

  /** " 1.2 " is the version 1.2: white space around a component is skipped. */
  lemma PaddedVersion()
    ensures Parse(" 1.2 ") == Some(Version([1, 2]))
  {
    var a, b := " 1", "2 ";
    assert a + "." + b == " 1.2 ";
    assert ParseComponent(a) == Some(1) by {
      SignedPaddedComponent(" ", "", 1, "");
      assert a == " " + "" + NatToString(1) + "";
    }
    assert ParseComponent(b) == Some(2) by {
      SignedPaddedComponent("", "", 2, " ");
      assert b == "" + "" + NatToString(2) + " ";
    }
    ParseTwo(a, b);
  }

  /** "-0.1" is the version 0.1. */
  lemma MinusZeroVersion()
    ensures Parse("-0.1") == Some(Version([0, 1]))
  {
    var a, b := "-0", "1";
    assert a + "." + b == "-0.1";
    assert ParseComponent(a) == Some(0) by {
      SignedPaddedComponent("", "-", 0, "");
      assert a == "" + "-" + NatToString(0) + "";
    }
    assert ParseComponent(b) == Some(1);
    ParseTwo(a, b);
  }

  /** "1.-2" is not a version. */
  lemma NegativeComponentRejected()
    ensures Parse("1.-2") == Null
  {
    var a, b := "1", "-2";
    assert a + "." + b == "1.-2";
    assert ParseComponent(b) == Null by {
      SignedPaddedComponent("", "-", 2, "");
      assert b == "" + "-" + NatToString(2) + "";
    }
    ParseTwo(a, b);
  }
}

=== FILE: windows.dfy ===
/** The Windows enumerations the core switches on. Their declarations are not part of this
    model; the members and names below are the ones the core mentions or prints. */
module Windows {

  /** `PlatWindows`: the device-family platforms a store listing can allow. */
  datatype PlatWindows = Universal | Desktop | Mobile | Xbox | Holographic | Team | IoT

  /** `PlatWindows.ToString()`. */
  function PlatformName(p: PlatWindows): string {
    match p
    case Universal => "Universal"
    case Desktop => "Desktop"
    case Mobile => "Mobile"
    case Xbox => "Xbox"
    case Holographic => "Holographic"
    case Team => "Team"
    case IoT => "IoT"
  }

  /** `Windows.System.ProcessorArchitecture`. */
  datatype ProcessorArchitecture = X86 | Arm | X64 | Neutral | Arm64 | X86OnArm64 | UnknownArchitecture

  /** `ProcessorArchitecture.ToString()`. */
  function ArchitectureName(a: ProcessorArchitecture): string {
    match a
    case X86 => "X86"
    case Arm => "Arm"
    case X64 => "X64"
    case Neutral => "Neutral"
    case Arm64 => "Arm64"
    case X86OnArm64 => "X86OnArm64"
    case UnknownArchitecture => "Unknown"
  }

  /** `Windows.System.LaunchQuerySupportStatus`, the answer of `Launcher.QueryUriSupportAsync`. */
  datatype LaunchQuerySupportStatus = Available | AppNotInstalled | AppUnavailable | NotSupported | UnknownSupport
}
